=== FILE: README.md ===
# mrubyd: request framing, worker dispatch and the supervisor's slot table

`mrubyd` is a pre-forking daemon that runs mruby scripts for a small client,
`mrubyc`. The supervisor keeps a pool of `maxchilds` workers. Each worker races
to `accept` one connection on a Unix-domain socket. It then reads one request
record, takes over the client's standard descriptors and runs the script. It
replies with a 4-byte exit status. When a worker accepts a connection it closes
the write end of its slot's pipe. The supervisor sees the pipe become readable
in `select` and spawns a replacement into that slot.

This Dafny project models the sequential logic inside that plumbing:

- **Request record** (`Request`, `Client`, `Worker`):
  - the client builds a record of one tag byte (`e`, `f` or `q`) followed by the payload, in a 1026-byte buffer;
  - the worker `recv`s at most 999 bytes, NUL-terminates them and dispatches on the first byte;
  - the worker's exit-status rule, and the client's status rule.
- **Slot table `childpipes`** (`Slots`): a `seq<int>` using `-1` for "no descriptor". `pipe`/`fork` are an oracle (`SpawnAnswer`). The model covers:
  - initialisation;
  - `spawn`;
  - `closechildpipes`;
  - one pass of the refill loop;
  - the start-up loop.
- **Command lines** (`Client`, `Daemon`):
  - option handling and operand acceptance;
  - the `-c` bounds 1..10000 and the default pool of 5.
- **Endpoint path** (`SockPath`, `Decimal`): `/tmp/mrubyd-` followed by `$LOGIN` or by `(int)getuid()` in decimal. The daemon formats it into a 100-byte buffer and the client into the 104-byte `sun_path`.
- **One connection end to end** (`Session`): client plan, worker behaviour and client exit status.

Helper modules:

- `Wrappers`: `Option` and `Result`.
- `Libc`: C strings, `snprintf` truncation and the exit statuses.

Four behaviours of the code are easy to misread. The model follows the code in each.

- **Shutdown.** A worker that reads `q` sends `SIGTERM` to its process group with `killpg(0, SIGTERM)`. As the comment at tools/mrubyd/mrubyd.c:99 says, the worker is itself killed by that signal. A worker that read any other request has already called `setsid()` (tools/mrubyd/mrubyd.c:102), so it sits in a process group of its own. The signal therefore does not reach a worker that is busy with another request.
- **Missing status.** A file that does not open ends the worker in `err(1, "fopen")` (tools/mrubyd/mrubyd.c:113-115), with no reply. The client sets `status` only when `recv` returns -1, so after end-of-file its exit status is undetermined. The Findings row for tools/mrubyc/mrubyc.c:137-141 covers this.
- **Size guard.** The client admits `-e` scripts of up to 1024 bytes (tools/mrubyc/mrubyc.c:85-87), but the worker's `recv` takes at most 999 bytes (tools/mrubyd/mrubyd.c:91). A longer record leaves its tail ahead of the descriptor messages. The first `recvdesc` then finds no descriptor, and the worker ends in `errx(1, ...)` (tools/mrubyd/mrubyd.c:72-73) without replying. The Findings row for tools/mrubyc/mrubyc.c:85-87 covers this.
- **Leaked descriptors.** `closechildpipes` tests `childpipes[i] == -1` before its `close` (tools/mrubyd/mrubyd.c:140-142). So it closes only `-1` and leaves every live slot open, and a new worker keeps every read end the supervisor holds. The supervisor closes each pipe's write end right after `fork` (tools/mrubyd/mrubyd.c:187). The only write end a worker holds is therefore its own, and the leak does not keep another slot's pipe from reaching end-of-file. The Findings row for tools/mrubyd/mrubyd.c:139-144 covers this.

## Model

| member | source | states |
|---|---|---|
| Libc.CStr | tools/mrubyd/mrubyd.c:95-112 | The string read at a buffer position is the longest NUL-free prefix. It stops exactly at the first NUL, or runs to the end of the buffer. |
| Libc.Snprintf | tools/mrubyc/mrubyc.c:123 | `snprintf` keeps the longest prefix of the text that fits in `size - 1` bytes and ends it with a NUL. For a NUL-free text, the C string left in the buffer is exactly that prefix. |
| Decimal.Int32Of | tools/mrubyd/mrubyd.c:35 | `(int)getuid()` is the two's-complement reading of the uid: it lies in the 32-bit signed range and is congruent to the uid modulo 2^32. |
| Decimal.FormatInt | tools/mrubyd/mrubyd.c:35 | `%d` writes the canonical text: a minus sign exactly for a negative number, then decimal digits with no leading zero, and `0` for zero. |
| Decimal.FormatIntRoundTrip | tools/mrubyd/mrubyd.c:35 | `%d` output reads back as the same integer. |
| Decimal.FormatInt32Length | tools/mrubyd/mrubyd.c:29-35 | Any `int` formats in at most 11 bytes, so a uid path always fits the daemon's 100-byte buffer. |
| SockPath.Identity | tools/mrubyd/mrubyd.c:31-36 | The identity is the `LOGIN` value when it is set; otherwise it is text that reads back as `(int)getuid()`. |
| SockPath.FullPath | tools/mrubyc/mrubyc.c:19-24 | The untruncated path is `/tmp/mrubyd-` followed by the identity, and nothing else. |
| SockPath.DaemonPath | tools/mrubyd/mrubyd.c:25-43 | The daemon's derived path is shorter than its 100-byte buffer. |
| SockPath.ClientPath | tools/mrubyc/mrubyc.c:16-25 | The client's derived path is shorter than the 104-byte `sun_path`. |
| SockPath.PathsAgree | tools/mrubyc/mrubyc.c:19-24 | A full path under 100 bytes is used untruncated by both programs, so they name the same endpoint. |
| SockPath.PathsDiverge | tools/mrubyd/mrubyd.c:29-33 | At 100 bytes or more, the daemon keeps 99 bytes and the client at least 100: the two paths differ. |
| SockPath.UidPathsAgree | tools/mrubyd/mrubyd.c:34-36 | Without `LOGIN`, daemon and client always derive the same path. |
| SockPath.UidPathsDistinct | tools/mrubyd/mrubyd.c:34-36 | Without `LOGIN`, two different uids give two different paths, on the daemon side and on the client side. |
| SockPath.PathNamesOwner | tools/mrubyd/mrubyd.c:31-36 | The path is `/tmp/mrubyd-` followed by the login, or by digits that read back as `(int)getuid()`. |
| Request.Receive | tools/mrubyd/mrubyd.c:89-95 | The worker takes `n = min(len, 999)` bytes. The terminator index `n` lies inside the 1000-byte buffer. The first `n` bytes are the stream's. |
| Request.RoundTrip | tools/mrubyd/mrubyd.c:91-119 | For a NUL-free payload whose record fits 999 bytes, decoding the received record gives the command sent: `e` runs the text, `f` opens the path and names the file by the whole buffer, `q` shuts down. |
| Request.ShutdownOnlyOnQuitTag | tools/mrubyd/mrubyd.c:97-100 | The worker shuts down if and only if the first byte is `q`. |
| Request.UnknownTagLoadsNothing | tools/mrubyd/mrubyd.c:107-120 | An empty record, or a first byte that is none of `e`/`f`/`q`, loads nothing. |
| Request.LongScriptTruncated | tools/mrubyd/mrubyd.c:91-110 | For a script of 999 bytes or more, the buffer the worker decodes holds only its first 998 bytes. |
| Request.Encode | tools/mrubyc/mrubyc.c:122-130 | The record is one tag byte followed by the payload: `q` exactly for quit, `e` exactly for an inline script, `f` exactly for a file. |
| Request.Decode | tools/mrubyd/mrubyd.c:97-119 | The worker shuts down exactly on a first byte `q` and loads nothing exactly on a byte other than `e`, `f` or `q`. The text it runs, or the path it opens, is the whole C string after the tag: NUL-free and ending at the first NUL or the end of the buffer. A file is named by `f` followed by its path. |
| Worker.Child | tools/mrubyd/mrubyd.c:81-132 | The worker shuts down exactly on a `q` record. It replies only to a record of at most 999 bytes that came with three descriptors, which become its standard descriptors. It never replies to `q`, and a request that loads nothing succeeds. |
| Worker.StatusOf | tools/mrubyd/mrubyd.c:122-128 | The status is `EXIT_FAILURE` if and only if an exception is pending, otherwise `EXIT_SUCCESS`. |
| Worker.PrintsError | tools/mrubyd/mrubyd.c:123-126 | The error is printed only when the status is failure. |
| Worker.Rebind | tools/mrubyd/mrubyd.c:103-105 | The k-th descriptor received becomes descriptor k, for k = 0, 1, 2. |
| Worker.ReplyStatus | tools/mrubyd/mrubyd.c:107-128 | A replying worker fails if and only if it loaded something and an exception is pending. It prints the error exactly when, in addition, the value is not undef. It never replies to a `q`. |
| Worker.RepliesWhen | tools/mrubyd/mrubyd.c:57-119 | A worker replies if and only if: its `recv` succeeded, the request is not `q`, the whole request was at most 999 bytes, three descriptors arrived, and a requested file opened. |
| Client.LastScript | tools/mrubyc/mrubyc.c:84-89 | The script is `Some` if and only if a `-e` was given. It is the text of the `-e` that no later `-e` follows; with no `-e` the default stands. |
| Client.ParseFrom | tools/mrubyc/mrubyc.c:82-99 | Option parsing succeeds if and only if every option is accepted. Otherwise the first rejected option decides the exit: 1 for an overlong `-e`, 0 for usage. |
| Client.ParsedSettings | tools/mrubyc/mrubyc.c:84-92 | After parsing, the quit flag is set if and only if some `-q` was given, and the script is the last `-e`. |
| Client.ParseOptions | tools/mrubyc/mrubyc.c:82-99 | Parsed options carry the last `-e`, which is within the guard, and the `-q` flag. |
| Client.LastScriptAccepted | tools/mrubyc/mrubyc.c:85-88 | When every option passed the guard, the script kept passed it too. |
| Client.Choose | tools/mrubyc/mrubyc.c:103-130 | The client exits 1 exactly when there is neither one operand, nor `-e`, nor `-q`. An `-e` is sent whenever given; otherwise `-q` is sent whenever given; otherwise the one operand is sent as a file path. |
| Client.PlanAsWritten | tools/mrubyc/mrubyc.c:82-130 | As written, the client either exits 0 or 1, or sends a request after every option passed the 1024-byte guard; an inline script sent is at most 1024 bytes. |
| Client.Acceptance | tools/mrubyc/mrubyc.c:103-106 | Parsed options lead to a request if and only if there is exactly one operand, or `-e`, or `-q`. Otherwise the client exits 1. |
| Client.Precedence | tools/mrubyc/mrubyc.c:122-130 | `-e` is sent over `-q`, and `-q` over the operand. The last `-e` is the one sent. |
| Client.PlanRequest | tools/mrubyc/mrubyc.c:85-87 | With the guard matched to the worker, every request sent has a record of at most 999 bytes. |
| Client.FormatAndSendWhole | tools/mrubyc/mrubyc.c:123 | A record shorter than the buffer is sent exactly as formatted. |
| Client.InlineRecordIntact | tools/mrubyc/mrubyc.c:122-123 | Every script the 1024-byte guard admits is sent whole as `e` plus the script, in at most 1025 bytes. |
| Client.FormatAndSend | tools/mrubyc/mrubyc.c:123-133 | `send` goes beyond the 1026-byte buffer exactly when the formatted text is longer than it, and then asks for the text's whole length. Otherwise it sends as many bytes as the text has, all but the last equal to the text's. |
| Client.RecordAsWritten | tools/mrubyc/mrubyc.c:122-133 | A record sent within the buffer is 1 to 1026 bytes long and starts with the command's tag. Only an `e` or `f` record can go beyond the buffer, and then it is longer than 1026 bytes. |
| Client.QuitRecordIsOneByte | tools/mrubyc/mrubyc.c:124-126 | The quit record is exactly the single byte `q`. |
| Client.FileRecordCut | tools/mrubyc/mrubyc.c:128-133 | A 1025-byte path is sent with its last byte replaced by NUL, so the record differs from `f` plus the path. |
| Client.FileRecordBeyondBuffer | tools/mrubyc/mrubyc.c:128-133 | A path of 1026 bytes or more makes `send` take `1 + length` bytes, past the 1026-byte buffer. |
| Client.AsWrittenSendsOverlongPath | tools/mrubyc/mrubyc.c:128-133 | A 1026-byte path passes every check and is sent beyond the buffer. |
| Client.PlannedPayload | tools/mrubyc/mrubyc.c:84-88 | The payload of every planned request is a C string of at most 998 bytes. |
| Client.CommandRecordIntact | tools/mrubyc/mrubyc.c:122-133 | Such a command is sent exactly as encoded, and its record fits the worker. |
| Client.PlannedRecordIntact | tools/mrubyc/mrubyc.c:122-133 | Every request the corrected client plans is sent as encoded and reaches the worker whole. |
| Client.SendFds | tools/mrubyc/mrubyc.c:57-62 | Three messages are sent, carrying descriptors 0, 1 and 2 in that order. |
| Client.ExitStatusAsWritten | tools/mrubyc/mrubyc.c:137-141 | A `recv` error means failure, and a full read is the worker's status. A short read determines no status. |
| Client.ExitStatus | tools/mrubyc/mrubyc.c:137-141 | The client exits 0 only on a full read of 0. It agrees with the as-written rule wherever that rule determines a status. |
| Slots.InitSlots | tools/mrubyd/mrubyd.c:254-260 | Before any spawn, each of the `maxchilds` slots holds `-1`. |
| Slots.Spawn | tools/mrubyd/mrubyd.c:155-187 | A failed `pipe` leaves the table unchanged. A failed `fork` ends the daemon. Otherwise only slot `idx` changes, to the new read end. |
| Slots.CloseChildPipes | tools/mrubyd/mrubyd.c:139-144 | As written, the table is unchanged, and every descriptor passed to `close` is `-1`. |
| Slots.CloseSiblingPipes | tools/mrubyd/mrubyd.c:134-145 | Corrected: every sibling slot ends `-1`, the worker's own slot is kept, and exactly the live sibling descriptors are closed, in index order. |
| Slots.AsWrittenChildKeepsSiblings | tools/mrubyd/mrubyd.c:165-166 | As written, a new worker keeps every read end the supervisor holds, plus its own write end. |
| Slots.SiblingCleanupLeavesOwnWriteEnd | tools/mrubyd/mrubyd.c:165-166 | With the corrected cleanup, a new worker holds exactly its own write end. |
| Slots.StaleSiblingClosesOwnWriteEnd | tools/mrubyd/mrubyd.c:155-158 | A stale sibling slot carrying the new write end's number makes a sibling cleanup close the worker's own pipe. |
| Slots.ReadyFromExact | tools/mrubyd/mrubyd.c:279-280 | The ready-slot list holds exactly the slots whose descriptor `select` reported, in ascending order. |
| Slots.ChosenFromIsFirst | tools/mrubyd/mrubyd.c:279-284 | The loop's step-by-step choice is the first `n` ready slots in index order. |
| Slots.PassFrom | tools/mrubyd/mrubyd.c:279-285 | A pass that ends normally keeps the table size and only adds to the closed descriptors. Its count drops by exactly one per descriptor closed, and a positive count never drops below 0. |
| Slots.PassFromDies | tools/mrubyd/mrubyd.c:279-285 | The rest of a pass ends the daemon if and only if `fork` fails for a slot it chooses. |
| Slots.PassFromSlots | tools/mrubyd/mrubyd.c:279-285 | Each chosen slot is refilled, and every other slot keeps its value. |
| Slots.PassFromTrace | tools/mrubyd/mrubyd.c:279-285 | The chosen slots' old descriptors are closed, in index order. |
| Slots.PassFromCount | tools/mrubyd/mrubyd.c:279-285 | The count drops by one per chosen slot. |
| Slots.PassMeaning | tools/mrubyd/mrubyd.c:279-285 | A whole pass is related to its starting table. |
| Slots.RefillPass | tools/mrubyd/mrubyd.c:279-285 | One pass visits slots in index order. It closes and respawns exactly the first `n` ready slots and leaves the rest unchanged. It dies if and only if one of their forks fails. It ends with `n` reduced by the number respawned. |
| Slots.PassSparesIdleSlots | tools/mrubyd/mrubyd.c:280 | A slot not reported ready is never respawned. |
| Slots.PassCoversReady | tools/mrubyd/mrubyd.c:279-284 | When `n` covers every ready slot, all of them are respawned. When it equals their number, it ends at 0. |
| Slots.PipeFailureLeavesStaleSlot | tools/mrubyd/mrubyd.c:155-158 | A failed `pipe` during a refill leaves the slot holding the descriptor the pass just closed. |
| Slots.StartPool | tools/mrubyd/mrubyd.c:254-264 | Start-up ends the daemon if and only if `calloc` of the table fails or a `fork` fails. Otherwise slot i holds its pipe's read end, or `-1` when its `pipe` failed. |
| Daemon.ParseFrom | tools/mrubyd/mrubyd.c:206-223 | The options are taken if and only if every `-c` is in 1..10000 and there is no `-h` or unknown option. Otherwise the first rejected option decides: 1 for `-c`, 0 for usage. |
| Daemon.LastOptionsWin | tools/mrubyd/mrubyd.c:208-217 | The last `-c` sets the pool size and the last `-p` sets the path. Without them the defaults stand. |
| Daemon.LastOptionsSettle | tools/mrubyd/mrubyd.c:206-223 | From a pool size in range and no path, a taken command line keeps the pool size in 1..10000 and sets a path only from a `-p`. |
| Daemon.ParseDaemonOptions | tools/mrubyd/mrubyd.c:206-223 | The command line is taken if and only if every option is accepted. A taken one has a pool size in 1..10000, and a path only when some `-p` gave it. |
| Daemon.PoolSizeBounds | tools/mrubyd/mrubyd.c:209-213 | Any accepted command line yields a pool size in 1..10000. |
| Daemon.PoolSizeAccepted | tools/mrubyd/mrubyd.c:209-213 | `-c l` is taken if and only if 1 <= l <= 10000, and otherwise the daemon exits 1. |
| Daemon.DefaultSettings | tools/mrubyd/mrubyd.c:20-22 | Without `-c` the pool has 5 workers. With no options, no path is set. |
| Daemon.ListenPath | tools/mrubyd/mrubyd.c:227-229 | Without `-p`, the path bound fits the 100-byte buffer. |
| Daemon.DefaultEndpointsMeet | tools/mrubyd/mrubyd.c:227-237 | Without `-p`, the daemon binds where a client of the same user connects, whenever the path fits. |
| Daemon.Boot | tools/mrubyd/mrubyd.c:206-264 | From the options to a running pool: the option exit codes, then a table of exactly `maxchilds` slots, each filled or `-1`. After the options are taken, the daemon fails, with status 1, exactly when `strdup` of the derived path fails (no `-p` given), `calloc` fails, or a `fork` fails. |
| Session.ClientReads | tools/mrubyd/mrubyd.c:179-181 | The client reads a full status if and only if the worker replied. |
| Session.EndToEnd | tools/mrubyd/mrubyd.c:91-131 | Every request the corrected client sends arrives whole. The worker dispatches the command meant and rebinds the passed descriptors in order. The client exits 0 if and only if the worker replied with no exception pending. |
| Session.StdioForwarded | tools/mrubyd/mrubyd.c:103-105 | Whenever the worker replies, the descriptors in the order `send_fds` passes them (0, 1, 2) become its descriptors 0, 1 and 2. |
| Session.AsWrittenOverlongScriptKillsWorker | tools/mrubyc/mrubyc.c:85-87 | As written, a 999-byte script passes the guard and is sent whole as 1000 bytes. The worker's buffer holds only 998 bytes of the script, and the worker ends without replying, so the client's exit status is undetermined. |
| Session.PlannedRefusesOverlongScript | tools/mrubyc/mrubyc.c:85-87 | With the matched guard, such a script is refused with exit 1. |
| Session.AsWrittenStatusUndetermined | tools/mrubyc/mrubyc.c:137-141 | As written, a missing file or a `q` leaves the client's exit status undetermined. |
| Session.NoReplyIsFailure | tools/mrubyc/mrubyc.c:137-141 | With the corrected rule, a worker that ends without replying makes the client exit 1. |

## Left out

- **Process and socket calls** are left out: `socket`, `unlink`, `bind`, `listen`, `umask`, `connect`, `accept`, `select`, `waitpid`, `killpg`, `setsid`, `dup2`, `setenv("MRUBYD_SOCK")`, `setproctitle` and `mrb_open`. This is OS plumbing. `pipe` and `fork` appear only as the `SpawnAnswer` oracle, and `select`'s answer appears only as the set of ready descriptors.
- **Concurrency** is left out: the `accept` race between workers and multi-process pool capacity. They involve several processes at once and have no sequential state to model.
- **Ancillary-message layout** is left out: the `CMSG` construction in `send_fds` and the checks in `recvdesc`. Only the order 0, 1, 2 and the worker's rebinding are kept.
- **The allocator** is an oracle: whether `strdup` in `allocsockpath` and `calloc` of the slot table fail comes in as parameters of `Daemon.Boot` and `Slots.StartPool`.
- **The mruby interpreter and `fopen`** are oracles. `LoadReport` says whether an exception is pending and whether the value is undef. A flag says whether the file opens.
- **`recv` stream semantics** are left out. With `MSG_WAITALL`, a short request can be merged with the placeholder bytes of the descriptor messages. The model assumes the worker sees the first min(len, 999) bytes of the record, and that a longer record leaves its tail ahead of the first descriptor message.
- **`strtol`** is left out: a `-c` option carries the number it parsed to. Base prefixes and trailing characters are not modelled.
- **`-p` paths** are not length-checked. `strncpy` of a `-p` path of 104 bytes or more leaves `sun_path` without a terminator; the model uses the path as given.
- **Parts of the supervisor loop** are left out: `FD_SET` of a `-1` slot, the `maxfd` computation, zombie reaping and the endless loop itself. When `select` fails, `n` is -1; a refill pass with `n <= 0` does nothing, which the model covers.
- **Worker fates outside the model:**
  - the listener's `_exit(1)` after a failed `accept`;
  - the `usage()` and "send quit message" printouts;
  - the final `mrb_close`.
- **Byte strings:** a `char` stands for one byte of a C string, and every length in the model is a byte count, as `strlen`, `recv` and `snprintf` count. Multi-byte encodings are not modelled.
- Session.ClientReads: a worker that ends without replying is read as end-of-file (a 0-byte read), never as a `recv` error. The worker's non-blocking `send` of its status is assumed to deliver all 4 bytes.
- Slots.RefillPass: `FD_ISSET` is modelled as "the slot's descriptor is in the ready set". Two slots holding the same stale descriptor value are therefore both ready together.

## Findings

| source | as written | input that shows it | evidently intended | confidence | as-written member | corrected member |
|---|---|---|---|---|---|---|
| tools/mrubyd/mrubyd.c:139-144 | `closechildpipes` tests `childpipes[i] == -1`, so it "closes" only empty slots. | Any table with a live sibling slot, e.g. slot 0 holding 5 while slot 1 is spawned: the new worker keeps descriptor 5 open. | Close every live sibling slot and mark it `-1`. | high; not executed | Slots.AsWrittenChildKeepsSiblings | Slots.CloseSiblingPipes |
| tools/mrubyc/mrubyc.c:128-132 | The file branch has no length guard, and `send` is given `snprintf`'s untruncated length. | A path of 1026 `a` bytes: `send` is asked for 1027 bytes of a 1026-byte buffer. | Reject a path the buffer and the worker cannot hold. | high; not executed | Client.AsWrittenSendsOverlongPath | Client.PlannedRecordIntact |
| tools/mrubyc/mrubyc.c:85-87 | The `-e` guard admits scripts of up to 1024 bytes, but the worker reads at most 999 bytes. | `-e` with 999 `a` bytes: the 1000-byte record is sent whole and `recv` takes 999. The last byte is left ahead of the descriptor messages, so the first `recvdesc` finds no descriptor and the worker ends in `errx(1, ...)` without replying. | Admit only scripts whose record the worker reads whole (at most 998 bytes). | medium; not executed | Session.AsWrittenOverlongScriptKillsWorker | Client.PlanRequest |
| tools/mrubyc/mrubyc.c:137-141 | Only `recv` returning -1 sets `status`; a short read or end-of-file leaves it uninitialised. | `f` with a path that does not open: the worker exits in `err(1, "fopen")` without replying. | A closed connection without a full status means failure. | medium; not executed | Session.AsWrittenStatusUndetermined | Client.ExitStatus |

=== FILE: client.dfy ===
/**
 * The client, `mrubyc`: option and operand handling, the request record it
 * builds in its 1026-byte buffer, the descriptor messages it sends and the
 * exit status it derives from the reply. Socket creation, `connect` and the
 * actual sends are left to the caller.
 */
module Client {
  import opened Wrappers
  import opened Libc
  import opened Request

  /** `char buf[1024+2]`. */
  const ClientBufSize: nat := 1024 + 2

  /** The `-e` guard as written: `strlen(optarg) > sizeof(buf) - 2` is rejected. */
  const MaxInlineAsWritten: nat := ClientBufSize - 2

  /** The longest payload whose record the worker's `recv` takes whole. */
  const MaxPayload: nat := RecvMax - 1

  /** One option as `getopt("e:p:q")` reports it. */
  datatype ClientOpt = ScriptOpt(text: string) | PathOpt(path: string) | QuitOpt | UnknownOpt

  datatype Options = Options(script: Option<string>, quit: bool)

  /** What the client does: exit before connecting, or send a request. */
  datatype Plan = Exits(code: int) | Sends(cmd: Command)

  /** An option the `getopt` loop keeps going after; `-p` has no case and ends in `usage(); exit(0)`. */
  predicate Accepted(o: ClientOpt, limit: nat)
  {
    o.QuitOpt? || (o.ScriptOpt? && |o.text| <= limit)
  }

  /** `opts[i]` is a `-e` that no later `-e` overrides. */
  predicate LastScriptAt(opts: seq<ClientOpt>, i: int)
  {
    0 <= i < |opts| && opts[i].ScriptOpt? && forall j :: i < j < |opts| ==> !opts[j].ScriptOpt?
  }

  /** The text of the last `-e`, or `dflt` when there is none. */
  function LastScript(opts: seq<ClientOpt>, dflt: Option<string>): (r: Option<string>)
    ensures r.Some? <==> dflt.Some? || exists i :: 0 <= i < |opts| && opts[i].ScriptOpt?
    ensures r == dflt || exists i :: 0 <= i < |opts| && opts[i].ScriptOpt? && r == Some(opts[i].text)
    ensures forall i :: LastScriptAt(opts, i) ==> r == Some(opts[i].text)
    ensures (forall i :: 0 <= i < |opts| ==> !opts[i].ScriptOpt?) ==> r == dflt
  {
    if |opts| == 0 then dflt
    else if opts[|opts| - 1].ScriptOpt? then Some(opts[|opts| - 1].text)
    else LastScript(opts[..|opts| - 1], dflt)
  }

  lemma {:induction false} LastScriptCons(o: ClientOpt, rest: seq<ClientOpt>, dflt: Option<string>)
    ensures LastScript([o] + rest, dflt) == LastScript(rest, if o.ScriptOpt? then Some(o.text) else dflt)
    decreases |rest|
  {
    var all := [o] + rest;
    if |rest| > 0 {
      assert all[..|all| - 1] == [o] + rest[..|rest| - 1];
      assert all[|all| - 1] == rest[|rest| - 1];
      LastScriptCons(o, rest[..|rest| - 1], dflt);
    } else {
      assert all[..|all| - 1] == [];
    }
  }

  /**
   * The `getopt` loop from the options already folded into `acc`: `-e` with a
   * script longer than `limit` ends in `err(1, ...)`, `-p` and unknown options
   * in `usage(); exit(0)`.
   */
  function ParseFrom(opts: seq<ClientOpt>, acc: Options, limit: nat): (r: Result<Options, int>)
    ensures r.Success? <==> forall i :: 0 <= i < |opts| ==> Accepted(opts[i], limit)
    ensures r.Failure? ==>
      (exists i :: 0 <= i < |opts| && !Accepted(opts[i], limit)
         && (forall j :: 0 <= j < i ==> Accepted(opts[j], limit))
         && r.error == (if opts[i].ScriptOpt? then ExitFailure else ExitSuccess))
    decreases |opts|
  {
    if |opts| == 0 then
      Success(acc)
    else
      var rest := opts[1..];
      var r := match opts[0]
        case ScriptOpt(text) =>
          if |text| > limit then Failure(ExitFailure) else ParseFrom(rest, acc.(script := Some(text)), limit)
        case QuitOpt => ParseFrom(rest, acc.(quit := true), limit)
        case PathOpt(_) => Failure(ExitSuccess)
        case UnknownOpt => Failure(ExitSuccess);
      assert forall i :: 1 <= i < |opts| ==> opts[i] == rest[i - 1];
      assert r.Failure? && Accepted(opts[0], limit) ==>
        (exists i :: 1 <= i < |opts| && !Accepted(opts[i], limit)
           && (forall j :: 0 <= j < i ==> Accepted(opts[j], limit))
           && r.error == (if opts[i].ScriptOpt? then ExitFailure else ExitSuccess)) by {
        if r.Failure? && Accepted(opts[0], limit) {
          var m :| 0 <= m < |rest| && !Accepted(rest[m], limit)
             && (forall j :: 0 <= j < m ==> Accepted(rest[j], limit))
             && r.error == (if rest[m].ScriptOpt? then ExitFailure else ExitSuccess);
          assert opts[m + 1] == rest[m];
        }
      }
      r
  }

  /** Once the options parse, `-q` anywhere sets the quit flag and the last `-e` is the script. */
  lemma {:induction false} ParsedSettings(opts: seq<ClientOpt>, acc: Options, limit: nat)
    requires ParseFrom(opts, acc, limit).Success?
    ensures ParseFrom(opts, acc, limit).value.quit == (acc.quit || exists i :: 0 <= i < |opts| && opts[i].QuitOpt?)
    ensures ParseFrom(opts, acc, limit).value.script == LastScript(opts, acc.script)
    decreases |opts|
  {
    if |opts| > 0 {
      var rest := opts[1..];
      assert opts == [opts[0]] + rest;
      assert forall i :: 1 <= i < |opts| ==> opts[i] == rest[i - 1];
      LastScriptCons(opts[0], rest, acc.script);
      var acc' := match opts[0]
        case ScriptOpt(text) => acc.(script := Some(text))
        case QuitOpt => acc.(quit := true)
        case _ => acc;
      assert ParseFrom(opts, acc, limit) == ParseFrom(rest, acc', limit);
      ParsedSettings(rest, acc', limit);
    }
  }

  /** `main`'s `getopt` loop from no script and no `-q`: the last `-e` wins, and it is within `limit`. */
  function ParseOptions(opts: seq<ClientOpt>, limit: nat): (r: Result<Options, int>)
    ensures r.Success? <==> forall i :: 0 <= i < |opts| ==> Accepted(opts[i], limit)
    ensures r.Success? ==> r.value.quit == QuitGiven(opts)
    ensures r.Success? ==> r.value.script == LastScript(opts, None)
    ensures r.Success? ==> (r.value.script.Some? <==> ScriptGiven(opts))
    ensures r.Success? && r.value.script.Some? ==> |r.value.script.value| <= limit
  {
    var r := ParseFrom(opts, Options(None, false), limit);
    if r.Success? then
      ParsedSettings(opts, Options(None, false), limit);
      LastScriptAccepted(opts, limit);
      r
    else r
  }

  /** When every option is accepted, the last `-e`, if any, is within `limit`. */
  lemma LastScriptAccepted(opts: seq<ClientOpt>, limit: nat)
    requires forall i :: 0 <= i < |opts| ==> Accepted(opts[i], limit)
    ensures LastScript(opts, None).Some? ==> |LastScript(opts, None).value| <= limit
  {
    if LastScript(opts, None).Some? {
      var i :| 0 <= i < |opts| && opts[i].ScriptOpt? && LastScript(opts, None) == Some(opts[i].text);
      assert Accepted(opts[i], limit);
    }
  }

  /** Operand check and the choice of request: `-e` before `-q` before the one script operand. */
  function Choose(o: Options, operands: seq<string>): (r: Result<Command, int>)
    ensures r.Failure? <==> |operands| != 1 && o.script.None? && !o.quit
    ensures r.Failure? ==> r.error == ExitFailure
    ensures r.Success? && r.value.Execute? <==> o.script.Some?
    ensures r.Success? && r.value.Execute? ==> o.script == Some(r.value.script)
    ensures r.Success? && r.value.Quit? <==> o.script.None? && o.quit
    ensures r.Success? && r.value.RunFile? ==> o.script.None? && !o.quit && |operands| == 1 && r.value.path == operands[0]
  {
    if |operands| != 1 && o.script.None? && !o.quit then Failure(ExitFailure)
    else if o.script.Some? then Success(Execute(o.script.value))
    else if o.quit then Success(Quit)
    else Success(RunFile(operands[0]))
  }

  /** `main` as written, up to the request it sends. */
  function PlanAsWritten(opts: seq<ClientOpt>, operands: seq<string>): (p: Plan)
    ensures p.Exits? ==> p.code == ExitSuccess || p.code == ExitFailure
    ensures p.Sends? ==> forall i :: 0 <= i < |opts| ==> Accepted(opts[i], MaxInlineAsWritten)
    ensures p.Sends? && p.cmd.Execute? ==> |p.cmd.script| <= MaxInlineAsWritten
  {
    match ParseOptions(opts, MaxInlineAsWritten)
    case Failure(code) => Exits(code)
    case Success(o) =>
      match Choose(o, operands)
      case Failure(code) => Exits(code)
      case Success(c) => Sends(c)
  }

  /**
   * `main` with the payload bound matched to the worker's buffer: `-e` is
   * guarded against `MaxPayload`, and so is the script path.
   */
  function PlanRequest(opts: seq<ClientOpt>, operands: seq<string>): (p: Plan)
    ensures p.Sends? ==> |Encode(p.cmd)| <= RecvMax
  {
    match ParseOptions(opts, MaxPayload)
    case Failure(code) => Exits(code)
    case Success(o) =>
      match Choose(o, operands)
      case Failure(code) => Exits(code)
      case Success(c) =>
        if c.RunFile? && |c.path| > MaxPayload then Exits(ExitFailure) else Sends(c)
  }

  predicate ScriptGiven(opts: seq<ClientOpt>)
  {
    exists i :: 0 <= i < |opts| && opts[i].ScriptOpt?
  }

  predicate QuitGiven(opts: seq<ClientOpt>)
  {
    exists i :: 0 <= i < |opts| && opts[i].QuitOpt?
  }

  /**
   * Once the options parse, the client goes on exactly when there is one
   * operand, or `-e`, or `-q`; otherwise it prints usage and exits 1.
   */
  lemma Acceptance(opts: seq<ClientOpt>, operands: seq<string>)
    requires ParseOptions(opts, MaxInlineAsWritten).Success?
    ensures PlanAsWritten(opts, operands).Sends? <==> |operands| == 1 || ScriptGiven(opts) || QuitGiven(opts)
    ensures !PlanAsWritten(opts, operands).Sends? ==> PlanAsWritten(opts, operands) == Exits(ExitFailure)
  {
  }

  /** `-e` wins over `-q`, which wins over the operand; the last `-e` given is the one sent. */
  lemma Precedence(opts: seq<ClientOpt>, operands: seq<string>)
    requires ParseOptions(opts, MaxInlineAsWritten).Success?
    ensures ScriptGiven(opts) ==> PlanAsWritten(opts, operands) == Sends(Execute(LastScript(opts, None).value))
    ensures !ScriptGiven(opts) && QuitGiven(opts) ==> PlanAsWritten(opts, operands) == Sends(Quit)
    ensures !ScriptGiven(opts) && !QuitGiven(opts) && |operands| == 1 ==> PlanAsWritten(opts, operands) == Sends(RunFile(operands[0]))
  {
  }

  /** The bytes `send(s, buf, len, 0)` takes from the buffer, or the over-read when `len` passes its end. */
  datatype SendBuffer = Within(bytes: string) | BeyondBuffer(len: nat)

  /** `len = snprintf(buf, sizeof(buf), ...)` followed by `send(s, buf, len, 0)`. */
  function FormatAndSend(text: string): (r: SendBuffer)
    ensures r.BeyondBuffer? <==> |text| > ClientBufSize
    ensures r.BeyondBuffer? ==> r.len == |text|
    ensures r.Within? ==> |r.bytes| == |text| && forall k :: 0 <= k < |text| - 1 ==> r.bytes[k] == text[k]
  {
    var buf := Snprintf(text, ClientBufSize);
    if |text| <= |buf| then Within(buf[..|text|]) else BeyondBuffer(|text|)
  }

  /** The record `main` sends as written: the `e` and `f` records go through `snprintf`, `q` is stored directly. */
  function RecordAsWritten(c: Command): (r: SendBuffer)
    ensures r.Within? ==> 1 <= |r.bytes| <= ClientBufSize && r.bytes[0] == Encode(c)[0]
    ensures r.BeyondBuffer? ==> !c.Quit? && r.len > ClientBufSize
  {
    match c
    case Execute(s) => FormatAndSend([TagExecute] + CStr(s))
    case RunFile(p) => FormatAndSend([TagFile] + CStr(p))
    case Quit => Within([TagQuit])
  }

  lemma FormatAndSendWhole(text: string)
    requires |text| < ClientBufSize
    ensures FormatAndSend(text) == Within(text)
  {
  }

  /** Every inline script the `-e` guard lets through is sent whole: `e` and the script, at most 1025 bytes. */
  lemma InlineRecordIntact(s: string)
    requires NulFree(s) && |s| <= MaxInlineAsWritten
    ensures RecordAsWritten(Execute(s)) == Within(Encode(Execute(s)))
    ensures |Encode(Execute(s))| < ClientBufSize
  {
    TaggedRecordIntact(TagExecute, s);
  }

  /** A tag and a C string that fit the buffer with room for the terminator are sent as they are. */
  lemma TaggedRecordIntact(tag: char, s: string)
    requires NulFree(s) && |s| <= MaxInlineAsWritten
    ensures FormatAndSend([tag] + CStr(s)) == Within([tag] + s)
  {
    assert CStr(s) == s;
    FormatAndSendWhole([tag] + s);
  }

  /** The quit record is the single byte `q`. */
  lemma QuitRecordIsOneByte()
    ensures RecordAsWritten(Quit) == Within(Encode(Quit)) && |Encode(Quit)| == 1
  {
  }

  /** A path of 1025 bytes is sent cut short, its last byte replaced by the terminator. */
  lemma FileRecordCut(p: string)
    requires NulFree(p) && |p| == ClientBufSize - 1
    ensures RecordAsWritten(RunFile(p)) == Within([TagFile] + p[..|p| - 1] + [NUL])
    ensures RecordAsWritten(RunFile(p)) != Within(Encode(RunFile(p)))
  {
    assert CStr(p) == p;
    var text := [TagFile] + p;
    assert text[..ClientBufSize - 1] == [TagFile] + p[..|p| - 1];
    var last := ([TagFile] + p[..|p| - 1] + [NUL])[|p|];
    assert last == NUL != p[|p| - 1];
  }

  /** A path of 1026 bytes or more makes `send` read past the end of the buffer. */
  lemma FileRecordBeyondBuffer(p: string)
    requires NulFree(p) && |p| >= ClientBufSize
    ensures RecordAsWritten(RunFile(p)) == BeyondBuffer(1 + |p|)
  {
    assert CStr(p) == p;
  }

  /** Client arguments are C strings. */
  predicate ArgsNulFree(opts: seq<ClientOpt>, operands: seq<string>)
  {
    && (forall i :: 0 <= i < |opts| && opts[i].ScriptOpt? ==> NulFree(opts[i].text))
    && (forall i :: 0 <= i < |operands| ==> NulFree(operands[i]))
  }

  /** A script path of 1026 bytes passes every check as written and makes `send` read past the buffer. */
  lemma AsWrittenSendsOverlongPath()
    ensures var p := seq(ClientBufSize, _ => 'a');
      && PlanAsWritten([], [p]) == Sends(RunFile(p))
      && RecordAsWritten(RunFile(p)).BeyondBuffer?
  {
    var p := seq(ClientBufSize, _ => 'a');
    assert NulFree(p);
    FileRecordBeyondBuffer(p);
  }

  /** The payload of every request the client plans is a C string short enough for the worker. */
  lemma PlannedPayload(opts: seq<ClientOpt>, operands: seq<string>)
    requires ArgsNulFree(opts, operands)
    requires PlanRequest(opts, operands).Sends?
    ensures var c := PlanRequest(opts, operands).cmd;
      NulFree(Payload(c)) && |Payload(c)| <= MaxPayload
  {
    var o := ParseOptions(opts, MaxPayload).value;
    if o.script.Some? {
      var i :| 0 <= i < |opts| && opts[i].ScriptOpt? && o.script == Some(opts[i].text);
    }
  }

  /**
   * With the payload bound matched to the worker, every request the client
   * sends is built whole in its buffer and reaches the worker whole.
   */
  lemma PlannedRecordIntact(opts: seq<ClientOpt>, operands: seq<string>)
    requires ArgsNulFree(opts, operands)
    requires PlanRequest(opts, operands).Sends?
    ensures var c := PlanRequest(opts, operands).cmd;
      RecordAsWritten(c) == Within(Encode(c)) && Fits(c)
  {
    PlannedPayload(opts, operands);
    CommandRecordIntact(PlanRequest(opts, operands).cmd);
  }

  /** A command whose payload is a C string of at most `MaxPayload` bytes is sent whole and fits the worker. */
  lemma CommandRecordIntact(c: Command)
    requires NulFree(Payload(c)) && |Payload(c)| <= MaxPayload
    ensures RecordAsWritten(c) == Within(Encode(c)) && Fits(c)
  {
    match c
    case Execute(s) =>
      InlineRecordIntact(s);
    case RunFile(p) =>
      TaggedRecordIntact(TagFile, p);
    case Quit =>
  }

  /** The descriptors `send_fds` passes, one per message: standard input, output and error, in that order. */
  function StdioOrder(): (s: seq<int>)
    ensures |s| == 3 && forall k :: 0 <= k < 3 ==> s[k] == k
  {
    [0, 1, 2]
  }

  /** `send_fds`: three messages, carrying descriptors 0, 1 and 2 in that order. */
  method SendFds() returns (messages: seq<int>)
    ensures |messages| == 3
    ensures forall k :: 0 <= k < |messages| ==> messages[k] == k
    ensures messages == StdioOrder()
  {
    messages := [];
    var i := 0;
    while i < 3
      invariant 0 <= i <= 3 && |messages| == i
      invariant forall k :: 0 <= k < i ==> messages[k] == k
    {
      messages := messages + [i];
      i := i + 1;
    }
  }

  /** What `recv(s, &status, sizeof(status), MSG_WAITALL)` returned. */
  datatype StatusRead = ReadFailed | ReadShort(got: nat) | ReadFull(value: int)

  /**
   * The exit status as written: -1 from `recv` means failure, a full read is
   * the worker's status, and a short read leaves `status` uninitialised
   * (`None`: no status is determined).
   */
  function ExitStatusAsWritten(r: StatusRead): (s: Option<int>)
    ensures s.None? <==> r.ReadShort?
    ensures r.ReadFailed? ==> s == Some(ExitFailure)
    ensures r.ReadFull? ==> s == Some(r.value)
  {
    match r
    case ReadFailed => Some(ExitFailure)
    case ReadShort(_) => None
    case ReadFull(v) => Some(v)
  }

  /** The exit status when a connection closed without a full status also counts as failure. */
  function ExitStatus(r: StatusRead): (s: int)
    ensures s == ExitSuccess ==> r == ReadFull(ExitSuccess)
    ensures r.ReadFull? ==> s == r.value
    ensures ExitStatusAsWritten(r).Some? ==> s == ExitStatusAsWritten(r).value
  {
    match r
    case ReadFull(v) => v
    case _ => ExitFailure
  }
}

=== FILE: daemon.dfy ===
/**
 * The daemon's command line, `mrubyd [-c num] [-p path]`: the pool size
 * `maxchilds` and the endpoint path, and the start-up that sizes the slot
 * table from them. `strtol` is left to the caller: a `-c` option carries the
 * number it parsed to.
 */
module Daemon {
  import opened Wrappers
  import opened Libc
  import opened Decimal
  import opened SockPath
  import opened Slots

  /** `int maxchilds = 5`. */
  const DefaultPool: int := 5

  /** The accepted range of `-c`. */
  const MinPool: int := 1
  const MaxPool: int := 10000

  /** One option as `getopt("c:hp:")` reports it; `-h` and every unknown option end alike. */
  datatype DaemonOpt = CountOpt(value: int) | PathOpt(path: string) | HelpOpt

  /** What the options settle: the pool size and the `-p` path, if any. */
  datatype Config = Config(maxchilds: int, sockpath: Option<string>)

  predicate InPoolRange(l: int)
  {
    MinPool <= l <= MaxPool
  }

  /** An option after which the `getopt` loop keeps going. */
  predicate Accepted(o: DaemonOpt)
  {
    match o
    case CountOpt(l) => InPoolRange(l)
    case PathOpt(_) => true
    case HelpOpt => false
  }

  /** `opts[i]` is a `-c` that no later `-c` overrides. */
  predicate LastCountAt(opts: seq<DaemonOpt>, i: int)
  {
    0 <= i < |opts| && opts[i].CountOpt? && forall j :: i < j < |opts| ==> !opts[j].CountOpt?
  }

  /** The position of the last `-c`. */
  function LastCount(opts: seq<DaemonOpt>): (i: int)
    requires exists i :: 0 <= i < |opts| && opts[i].CountOpt?
    ensures LastCountAt(opts, i)
  {
    if opts[|opts| - 1].CountOpt? then |opts| - 1
    else
      assert forall i :: 0 <= i < |opts| - 1 ==> opts[..|opts| - 1][i] == opts[i];
      LastCount(opts[..|opts| - 1])
  }

  /** `opts[i]` is a `-p` that no later `-p` overrides. */
  predicate LastPathAt(opts: seq<DaemonOpt>, i: int)
  {
    0 <= i < |opts| && opts[i].PathOpt? && forall j :: i < j < |opts| ==> !opts[j].PathOpt?
  }

  /**
   * The `getopt` loop from the settings already folded into `acc`: a `-c`
   * outside 1..10000 ends in `errx(1, ...)`, `-h` or an unknown option in
   * `usage(); exit(0)`.
   */
  function ParseFrom(opts: seq<DaemonOpt>, acc: Config): (r: Result<Config, int>)
    ensures r.Success? <==> forall i :: 0 <= i < |opts| ==> Accepted(opts[i])
    ensures r.Failure? ==>
      (exists i :: 0 <= i < |opts| && !Accepted(opts[i])
         && (forall j :: 0 <= j < i ==> Accepted(opts[j]))
         && r.error == (if opts[i].CountOpt? then ExitFailure else ExitSuccess))
    decreases |opts|
  {
    if |opts| == 0 then
      Success(acc)
    else
      var rest := opts[1..];
      var r := match opts[0]
        case CountOpt(l) =>
          if !InPoolRange(l) then Failure(ExitFailure) else ParseFrom(rest, acc.(maxchilds := l))
        case PathOpt(p) => ParseFrom(rest, acc.(sockpath := Some(p)))
        case HelpOpt => Failure(ExitSuccess);
      assert forall i :: 1 <= i < |opts| ==> opts[i] == rest[i - 1];
      assert r.Failure? && Accepted(opts[0]) ==>
        (exists i :: 1 <= i < |opts| && !Accepted(opts[i])
           && (forall j :: 0 <= j < i ==> Accepted(opts[j]))
           && r.error == (if opts[i].CountOpt? then ExitFailure else ExitSuccess)) by {
        if r.Failure? && Accepted(opts[0]) {
          var m :| 0 <= m < |rest| && !Accepted(rest[m])
             && (forall j :: 0 <= j < m ==> Accepted(rest[j]))
             && r.error == (if rest[m].CountOpt? then ExitFailure else ExitSuccess);
          assert opts[m + 1] == rest[m];
        }
      }
      r
  }

  /** The last `-c` sets the pool size and the last `-p` the path; without them `acc` stands. */
  lemma {:induction false} LastOptionsWin(opts: seq<DaemonOpt>, acc: Config)
    requires ParseFrom(opts, acc).Success?
    ensures var c := ParseFrom(opts, acc).value;
      && (forall i :: LastCountAt(opts, i) ==> c.maxchilds == opts[i].value)
      && ((forall i :: 0 <= i < |opts| ==> !opts[i].CountOpt?) ==> c.maxchilds == acc.maxchilds)
      && (forall i :: LastPathAt(opts, i) ==> c.sockpath == Some(opts[i].path))
      && ((forall i :: 0 <= i < |opts| ==> !opts[i].PathOpt?) ==> c.sockpath == acc.sockpath)
    decreases |opts|
  {
    if |opts| > 0 {
      var rest := opts[1..];
      assert forall i :: 1 <= i < |opts| ==> opts[i] == rest[i - 1];
      var acc' := match opts[0]
        case CountOpt(l) => acc.(maxchilds := l)
        case PathOpt(p) => acc.(sockpath := Some(p))
        case HelpOpt => acc;
      assert ParseFrom(opts, acc) == ParseFrom(rest, acc');
      LastOptionsWin(rest, acc');
      forall i | LastCountAt(opts, i) && i > 0
        ensures LastCountAt(rest, i - 1)
      {
      }
      forall i | LastPathAt(opts, i) && i > 0
        ensures LastPathAt(rest, i - 1)
      {
      }
    }
  }

  /** The position of the last `-p`. */
  function LastPath(opts: seq<DaemonOpt>): (i: int)
    requires exists i :: 0 <= i < |opts| && opts[i].PathOpt?
    ensures LastPathAt(opts, i)
  {
    if opts[|opts| - 1].PathOpt? then |opts| - 1
    else
      assert forall i :: 0 <= i < |opts| - 1 ==> opts[..|opts| - 1][i] == opts[i];
      LastPath(opts[..|opts| - 1])
  }

  /**
   * From settings with a pool size in range and no path, a command line that
   * is taken keeps the pool size in range and sets a path only from a `-p`.
   */
  lemma LastOptionsSettle(opts: seq<DaemonOpt>, acc: Config)
    requires ParseFrom(opts, acc).Success?
    requires InPoolRange(acc.maxchilds) && acc.sockpath.None?
    ensures InPoolRange(ParseFrom(opts, acc).value.maxchilds)
    ensures var p := ParseFrom(opts, acc).value.sockpath;
      p.Some? ==> exists i :: 0 <= i < |opts| && opts[i] == PathOpt(p.value)
  {
    LastOptionsWin(opts, acc);
    if exists i :: 0 <= i < |opts| && opts[i].CountOpt? {
      assert Accepted(opts[LastCount(opts)]);
    }
    if exists i :: 0 <= i < |opts| && opts[i].PathOpt? {
      var i := LastPath(opts);
      assert opts[i] == PathOpt(opts[i].path);
    }
  }

  /**
   * `main`'s `getopt` loop, starting from the defaults: a command line it
   * takes always sets a pool size in 1..10000, and a path only from a `-p`.
   */
  function ParseDaemonOptions(opts: seq<DaemonOpt>): (r: Result<Config, int>)
    ensures r.Success? <==> forall i :: 0 <= i < |opts| ==> Accepted(opts[i])
    ensures r.Success? ==> InPoolRange(r.value.maxchilds)
    ensures r.Success? && r.value.sockpath.Some? ==> exists i :: 0 <= i < |opts| && opts[i] == PathOpt(r.value.sockpath.value)
  {
    var r := ParseFrom(opts, Config(DefaultPool, None));
    if r.Success? then
      LastOptionsSettle(opts, Config(DefaultPool, None));
      r
    else
      r
  }

  /** Whatever the options, a daemon that gets past them runs a pool of 1 to 10000 workers. */
  lemma PoolSizeBounds(opts: seq<DaemonOpt>)
    requires ParseDaemonOptions(opts).Success?
    ensures InPoolRange(ParseDaemonOptions(opts).value.maxchilds)
  {
  }

  /** Without `-c` the pool has five workers; with no options at all, no path is set either. */
  lemma DefaultSettings(opts: seq<DaemonOpt>)
    requires ParseDaemonOptions(opts).Success?
    requires forall i :: 0 <= i < |opts| ==> !opts[i].CountOpt?
    ensures ParseDaemonOptions(opts).value.maxchilds == DefaultPool
    ensures ParseDaemonOptions([]) == Success(Config(DefaultPool, None))
  {
    LastOptionsWin(opts, Config(DefaultPool, None));
  }

  /** A single `-c l` is taken exactly when `l` is in 1..10000; otherwise the daemon exits with status 1. */
  lemma PoolSizeAccepted(l: int)
    ensures ParseDaemonOptions([CountOpt(l)]) ==
      if InPoolRange(l) then Success(Config(l, None)) else Failure(ExitFailure)
  {
    var acc := Config(DefaultPool, None);
    assert [CountOpt(l)][1..] == [];
    if InPoolRange(l) {
      assert ParseFrom([CountOpt(l)], acc) == ParseFrom([], acc.(maxchilds := l));
    }
  }

  /** The path the daemon binds to: the `-p` path, else the one `allocsockpath` derives. */
  function ListenPath(cfg: Config, login: Option<string>, uid: nat): (p: string)
    requires uid < UidModulus
    ensures cfg.sockpath.None? ==> |p| < DaemonBufSize
  {
    match cfg.sockpath
    case Some(path) => path
    case None => DaemonPath(login, uid)
  }

  /**
   * A daemon started without `-p` listens where a client of the same user
   * connects, whenever the full path fits the daemon's buffer.
   */
  lemma DefaultEndpointsMeet(opts: seq<DaemonOpt>, login: Option<string>, uid: nat)
    requires uid < UidModulus
    requires login.Some? ==> NulFree(login.value)
    requires |FullPath(login, uid)| < DaemonBufSize
    requires ParseDaemonOptions(opts).Success?
    requires forall i :: 0 <= i < |opts| ==> !opts[i].PathOpt?
    ensures ListenPath(ParseDaemonOptions(opts).value, login, uid) == ClientPath(login, uid)
  {
    LastOptionsWin(opts, Config(DefaultPool, None));
    PathsAgree(login, uid);
  }

  /**
   * `main` from its options to a running pool: the option loop, the path
   * `allocsockpath` copies with `strdup` when no `-p` was given, then the
   * table of `maxchilds` slots allocated, initialised and filled.
   * `strdupFails` and `callocFails` are the allocator's answers, and
   * `answers[i]` is the oracle's answer for slot `i` (entries past the pool
   * size go unused). `Failure` carries the exit status of a daemon that
   * stops early.
   */
  method Boot(opts: seq<DaemonOpt>, strdupFails: bool, callocFails: bool, answers: seq<SpawnAnswer>)
    returns (r: Result<seq<int>, int>)
    requires |answers| >= MaxPool
    ensures ParseDaemonOptions(opts).Failure? ==> r == Failure(ParseDaemonOptions(opts).error)
    ensures r.Success? ==> ParseDaemonOptions(opts).Success?
    ensures ParseDaemonOptions(opts).Success? ==> InPoolRange(ParseDaemonOptions(opts).value.maxchilds)
    ensures r.Success? ==> |r.value| == ParseDaemonOptions(opts).value.maxchilds
    ensures r.Success? ==> forall i :: 0 <= i < |r.value| ==> r.value[i] == Refilled(Empty, answers[i])
    ensures ParseDaemonOptions(opts).Success? ==>
      var cfg := ParseDaemonOptions(opts).value;
      (r.Failure? <==>
         (cfg.sockpath.None? && strdupFails) || callocFails
         || exists i :: 0 <= i < cfg.maxchilds && answers[i].ForkFails?)
    ensures r.Failure? && ParseDaemonOptions(opts).Success? ==> r.error == ExitFailure
  {
    var parsed := ParseDaemonOptions(opts);
    if parsed.Failure? {
      return Failure(parsed.error);
    }
    if parsed.value.sockpath.None? && strdupFails {
      return Failure(ExitFailure);
    }
    var size := parsed.value.maxchilds;
    var pool := StartPool(size, callocFails, answers[..size]);
    if pool.None? {
      return Failure(ExitFailure);
    }
    r := Success(pool.value);
  }
}

=== FILE: decimal.dfy ===
/**
 * The `%d` conversion of `printf` and the `(int)` cast of a 32-bit unsigned
 * user id, with a parser that inverts the conversion.
 */
module Decimal {
  import opened Wrappers

  const UidModulus: int := 0x1_0000_0000
  const IntMin: int := -0x8000_0000
  const IntMax: int := 0x7fff_ffff

  /** `(int)u` for a 32-bit unsigned `u` on a two's complement machine: ids above `INT_MAX` wrap to negatives. */
  function Int32Of(u: nat): (x: int)
    requires u < UidModulus
    ensures IntMin <= x <= IntMax
    ensures (x - u) % UidModulus == 0
    ensures u <= IntMax ==> x == u
  {
    if u <= IntMax then u else u - UidModulus
  }

  predicate IsDigit(c: char)
  {
    '0' <= c <= '9'
  }

  predicate AllDigits(s: string)
  {
    forall i :: 0 <= i < |s| ==> IsDigit(s[i])
  }

  function DigitChar(d: nat): (c: char)
    requires d < 10
    ensures IsDigit(c)
  {
    ('0' as int + d) as char
  }

  function DigitValue(c: char): nat
    requires IsDigit(c)
  {
    c as int - '0' as int
  }

  /** The decimal digits of `n`, most significant first, without leading zeros. */
  function Digits(n: nat): (r: string)
    ensures |r| >= 1 && AllDigits(r)
    ensures n > 0 ==> r[0] != '0'
    decreases n
  {
    if n < 10 then [DigitChar(n)] else Digits(n / 10) + [DigitChar(n % 10)]
  }

  /** The number a string of decimal digits denotes. */
  function ValueOf(s: string): nat
    requires AllDigits(s)
  {
    if |s| == 0 then 0 else ValueOf(s[..|s| - 1]) * 10 + DigitValue(s[|s| - 1])
  }

  /** `printf("%d", x)`. */
  function FormatInt(x: int): (r: string)
    ensures |r| >= 1 && (r[0] == '-' <==> x < 0)
    ensures x < 0 ==> AllDigits(r[1..])
    ensures x >= 0 ==> AllDigits(r)
    ensures x == 0 ==> r == "0"
    ensures x > 0 ==> r[0] != '0'
    ensures x < 0 ==> |r| >= 2 && r[1] != '0'
  {
    if x < 0 then "-" + Digits(-x) else Digits(x)
  }

  /** Reads back an optional minus sign followed by decimal digits. */
  function ParseInt(s: string): Option<int>
  {
    if |s| >= 2 && s[0] == '-' && AllDigits(s[1..]) then Some(0 - ValueOf(s[1..]))
    else if |s| >= 1 && AllDigits(s) then Some(ValueOf(s))
    else None
  }

  lemma {:induction false} DigitsRoundTrip(n: nat)
    ensures ValueOf(Digits(n)) == n
    decreases n
  {
    if n >= 10 {
      var p := Digits(n / 10);
      var r := p + [DigitChar(n % 10)];
      assert r[..|r| - 1] == p;
      DigitsRoundTrip(n / 10);
    }
  }

  /** An `int` below `10^k` prints in at most `k` digits. */
  lemma {:induction false} DigitsLength(n: nat, k: nat, bound: nat)
    requires k >= 1 && bound == Pow10(k) && n < bound
    ensures |Digits(n)| <= k
    decreases k
  {
    if n >= 10 {
      DigitsLength(n / 10, k - 1, Pow10(k - 1));
    }
  }

  function Pow10(k: nat): nat
  {
    if k == 0 then 1 else 10 * Pow10(k - 1)
  }

  /** The `%d` text of `x` reads back as `x`: the conversion loses nothing. */
  lemma FormatIntRoundTrip(x: int)
    ensures ParseInt(FormatInt(x)) == Some(x)
  {
    if x < 0 {
      var d := Digits(-x);
      assert ("-" + d)[1..] == d;
      DigitsRoundTrip(-x);
    } else {
      DigitsRoundTrip(x);
      assert Digits(x)[0] != '-';
    }
  }

  /** Every 32-bit `int` prints in at most eleven bytes. */
  lemma FormatInt32Length(x: int)
    requires IntMin <= x <= IntMax
    ensures |FormatInt(x)| <= 11
  {
    assert Pow10(10) == 10_000_000_000;
    if x < 0 {
      DigitsLength(-x, 10, Pow10(10));
    } else {
      DigitsLength(x, 10, Pow10(10));
    }
  }
}

=== FILE: libc.dfy ===
/**
 * The few pieces of C library behaviour both programs rely on: NUL-terminated
 * strings, `snprintf` truncation and the two standard exit statuses.
 */
module Libc {

  const NUL: char := '\0'

  const ExitSuccess: int := 0
  const ExitFailure: int := 1

  function Min(a: int, b: int): int
  {
    if a <= b then a else b
  }

  /** A C string never contains NUL: command-line arguments and `getenv` values are of this kind. */
  predicate NulFree(s: string)
  {
    forall i :: 0 <= i < |s| ==> s[i] != NUL
  }

  /**
   * The C string that starts at the beginning of `buf`: the bytes before
   * the first NUL, or all of `buf` when it holds none.
   */
  function CStr(buf: string): (r: string)
    ensures |r| <= |buf| && r == buf[..|r|]
    ensures NulFree(r)
    ensures |r| < |buf| ==> buf[|r|] == NUL
  {
    if |buf| == 0 || buf[0] == NUL then [] else [buf[0]] + CStr(buf[1..])
  }

  /** A NUL-free string followed by a terminator reads back as itself, whatever follows. */
  lemma CStrOfTerminated(s: string, rest: string)
    requires NulFree(s)
    ensures CStr(s + [NUL] + rest) == s
  {
    var buf := s + [NUL] + rest;
    assert buf[..|s|] == s && buf[|s|] == NUL;
  }

  /**
   * The buffer `snprintf(buf, size, "%s", text)` leaves behind, up to and
   * including the terminating NUL: the longest prefix of `text` that fits in
   * `size - 1` bytes. (`snprintf` itself returns `|text|`, the length it
   * would have written.)
   */
  function Snprintf(text: string, size: nat): (buf: string)
    requires size >= 1
    ensures 1 <= |buf| <= size && buf[|buf| - 1] == NUL
    ensures |buf| - 1 == Min(|text|, size - 1) && buf[..|buf| - 1] <= text
    ensures |CStr(buf)| < |buf|
    ensures NulFree(text) ==> CStr(buf) == text[..Min(|text|, size - 1)]
  {
    var kept := text[..Min(|text|, size - 1)];
    if NulFree(text) then
      assert NulFree(kept);
      CStrOfTerminated(kept, []);
      assert kept + [NUL] + [] == kept + [NUL];
      kept + [NUL]
    else
      kept + [NUL]
  }
}

=== FILE: request.dfy ===
/**
 * The request record a client sends and the worker decodes: one tag byte
 * (`e`, `f` or `q`) followed directly by the payload, with no delimiter and
 * no length field.
 */
module Request {
  import opened Libc

  const TagExecute: char := 'e'
  const TagFile: char := 'f'
  const TagQuit: char := 'q'

  /** `char buf[1000]` in the worker's `child`. */
  const RecvBufSize: nat := 1000

  /** The worker asks `recv` for `sizeof(buf) - 1` bytes, keeping one for the terminator. */
  const RecvMax: nat := RecvBufSize - 1

  /** What a client asks for. */
  datatype Command = Execute(script: string) | RunFile(path: string) | Quit

  function Payload(c: Command): string
  {
    match c
    case Execute(s) => s
    case RunFile(p) => p
    case Quit => []
  }

  /** The record a client sends for `c`. */
  function Encode(c: Command): (r: string)
    ensures |r| == 1 + |Payload(c)| && r[1..] == Payload(c)
    ensures r[0] == TagQuit <==> c.Quit?
    ensures r[0] == TagExecute <==> c.Execute?
    ensures r[0] == TagFile <==> c.RunFile?
  {
    match c
    case Execute(s) => [TagExecute] + s
    case RunFile(p) => [TagFile] + p
    case Quit => [TagQuit]
  }

  /** A command whose record reaches the worker whole and whose payload reads back as a C string. */
  predicate Fits(c: Command)
  {
    |Encode(c)| <= RecvMax && NulFree(Payload(c))
  }

  /** The worker's buffer after `recv` and `buf[n] = '\0'`: the bytes and the count `n`. */
  datatype RecvBuffer = RecvBuffer(bytes: string, n: nat)

  /**
   * `recv(sock, buf, sizeof(buf)-1, MSG_WAITALL)` over a stream carrying
   * `stream`, followed by NUL-termination. `stale` is the uninitialised buffer
   * the call writes into; what lies past the terminator is still stale.
   */
  function Receive(stale: string, stream: string): (b: RecvBuffer)
    requires |stale| == RecvBufSize
    ensures |b.bytes| == RecvBufSize
    ensures b.n <= RecvMax && b.n < |b.bytes| && b.bytes[b.n] == NUL
    ensures b.n == Min(|stream|, RecvMax) && b.bytes[..b.n] == stream[..b.n]
  {
    var n := Min(|stream|, RecvMax);
    RecvBuffer(stream[..n] + [NUL] + stale[n + 1..], n)
  }

  /** What the worker goes on to do with a request. */
  datatype Dispatch =
    | Shutdown
    | LoadString(text: string)
    | LoadFile(path: string, shownName: string)
    | LoadNothing

  /**
   * The worker's dispatch on the first byte of its buffer. A file is opened
   * under the C string at byte 1, but the interpreter is told the file name
   * is the whole buffer, tag included.
   */
  function Decode(buf: string): (r: Dispatch)
    requires |buf| >= 1
    ensures r.Shutdown? <==> buf[0] == TagQuit
    ensures r.LoadNothing? <==> buf[0] !in {TagQuit, TagExecute, TagFile}
    ensures r.LoadString? ==> buf[0] == TagExecute && NulFree(r.text) && r.text <= buf[1..]
    ensures r.LoadFile? ==> buf[0] == TagFile && NulFree(r.path) && r.path <= buf[1..]
    ensures r.LoadString? ==> 1 + |r.text| == |buf| || buf[1 + |r.text|] == NUL
    ensures r.LoadFile? ==> 1 + |r.path| == |buf| || buf[1 + |r.path|] == NUL
    ensures r.LoadFile? ==> r.shownName == [TagFile] + r.path
  {
    if buf[0] == TagQuit then Shutdown
    else if buf[0] == TagExecute then LoadString(CStr(buf[1..]))
    else if buf[0] == TagFile then LoadFile(CStr(buf[1..]), CStr(buf))
    else LoadNothing
  }

  /** The dispatch a client means by sending `c`. */
  function Intended(c: Command): Dispatch
  {
    match c
    case Execute(s) => LoadString(s)
    case RunFile(p) => LoadFile(p, [TagFile] + p)
    case Quit => Shutdown
  }

  /** Decoding what the worker receives of a fitting record yields the command that was encoded. */
  lemma RoundTrip(c: Command, stale: string)
    requires |stale| == RecvBufSize
    requires Fits(c)
    ensures Decode(Receive(stale, Encode(c)).bytes) == Intended(c)
  {
    var rec := Encode(c);
    var b := Receive(stale, rec);
    var rest := stale[|rec| + 1..];
    assert b.bytes == rec + [NUL] + rest;
    assert b.bytes[1..] == Payload(c) + [NUL] + rest;
    CStrOfTerminated(Payload(c), rest);
    if !c.Quit? {
      assert NulFree(rec) by {
        assert forall i :: 1 <= i < |rec| ==> rec[i] == Payload(c)[i - 1];
      }
      CStrOfTerminated(rec, rest);
    }
  }

  /** The first byte alone decides a shutdown: anything after a leading `q` is ignored. */
  lemma ShutdownOnlyOnQuitTag(stale: string, stream: string)
    requires |stale| == RecvBufSize
    ensures Decode(Receive(stale, stream).bytes).Shutdown? <==> |stream| >= 1 && stream[0] == TagQuit
  {
    var b := Receive(stale, stream);
    if |stream| >= 1 {
      assert b.bytes[0] == b.bytes[..b.n][0] == stream[0];
    }
  }

  /** An empty stream, or one whose first byte is no tag, makes the worker load nothing. */
  lemma UnknownTagLoadsNothing(stale: string, stream: string)
    requires |stale| == RecvBufSize
    requires |stream| == 0 || stream[0] !in {TagQuit, TagExecute, TagFile}
    ensures Decode(Receive(stale, stream).bytes) == LoadNothing
  {
    var b := Receive(stale, stream);
    if |stream| >= 1 {
      assert b.bytes[0] == b.bytes[..b.n][0] == stream[0];
    }
  }

  /**
   * For a script whose record is longer than the worker reads, the buffer the
   * worker decodes holds only its first `RecvMax - 1` bytes.
   */
  lemma LongScriptTruncated(s: string, stale: string)
    requires |stale| == RecvBufSize
    requires NulFree(s) && |s| >= RecvMax
    ensures Decode(Receive(stale, Encode(Execute(s))).bytes) == LoadString(s[..RecvMax - 1])
  {
    var rec := Encode(Execute(s));
    var b := Receive(stale, rec);
    var rest := stale[RecvMax + 1..];
    assert b.bytes[1..] == s[..RecvMax - 1] + [NUL] + rest;
    CStrOfTerminated(s[..RecvMax - 1], rest);
  }
}

=== FILE: session.dfy ===
/**
 * One connection from end to end: the request a client plans, what the worker
 * receives and does with it, and the exit status the client draws from the
 * reply. The worker's `send` of its status either delivers all of it or, when
 * the worker ended without replying, the client reads end-of-file.
 */
module Session {
  import opened Libc
  import opened Request
  import opened Worker
  import opened Client

  /** What the client's `recv` of the status sees once the worker has ended as `e`. */
  function ClientReads(e: WorkerEnd): (r: StatusRead)
    ensures r.ReadFull? <==> e.Replies?
    ensures r.ReadFailed? == false
  {
    match e
    case Replies(_, status, _, _) => ReadFull(status)
    case _ => ReadShort(0)
  }

  /**
   * A request the client sends whole reaches the worker whole: the worker
   * dispatches the command meant, takes over the three descriptors in the
   * order they were passed, and the client exits with the status the worker
   * derived from the interpreter, success exactly when no exception is pending.
   */
  lemma EndToEnd(opts: seq<ClientOpt>, operands: seq<string>, stale: string, passed: seq<int>, fileOpens: bool, report: LoadReport)
    requires ArgsNulFree(opts, operands)
    requires PlanRequest(opts, operands).Sends?
    requires |stale| == RecvBufSize && |passed| >= 3
    ensures var c := PlanRequest(opts, operands).cmd;
      var e := Child(Stream(Encode(c)), stale, passed, fileOpens, report);
      && RecordAsWritten(c) == Within(Encode(c))
      && (c.Quit? <==> e.ShutsDown?)
      && (e.Replies? <==> !c.Quit? && (c.RunFile? ==> fileOpens))
      && (e.Replies? ==> e.ran == Intended(c) && e.stdio == passed[..3])
      && (ExitStatus(ClientReads(e)) == ExitSuccess <==> e.Replies? && !report.exc)
      && (e.Replies? ==> ExitStatus(ClientReads(e)) == StatusOf(report))
  {
    var c := PlanRequest(opts, operands).cmd;
    PlannedRecordIntact(opts, operands);
    RoundTrip(c, stale);
    var d := Decode(Receive(stale, Encode(c)).bytes);
    assert d == Intended(c);
    assert !d.LoadNothing?;
  }

  /**
   * The descriptors `send_fds` passes, in its order, become the worker's
   * standard input, output and error: descriptor k lands on descriptor k.
   */
  lemma StdioForwarded(incoming: Incoming, stale: string, fileOpens: bool, report: LoadReport)
    requires |stale| == RecvBufSize
    ensures var e := Child(incoming, stale, StdioOrder(), fileOpens, report);
      e.Replies? ==> e.stdio == StdioOrder() && forall k :: 0 <= k < 3 ==> e.stdio[k] == k
  {
    assert StdioOrder()[..3] == StdioOrder();
  }

  /**
   * As written, an inline script of 999 bytes passes the client's 1024-byte
   * guard and is sent whole. The worker's buffer holds only its first 998
   * bytes, and the record's last byte is left ahead of the descriptor
   * messages, so the first `recvdesc` fails: the worker exits without a
   * reply and the client's status is never set.
   */
  lemma AsWrittenOverlongScriptKillsWorker(stale: string, passed: seq<int>, report: LoadReport)
    requires |stale| == RecvBufSize
    ensures var s := seq(RecvMax, _ => 'a');
      var e := Child(Stream(RecordAsWritten(Execute(s)).bytes), stale, passed, true, report);
      && PlanAsWritten([ScriptOpt(s)], []) == Sends(Execute(s))
      && RecordAsWritten(Execute(s)) == Within(Encode(Execute(s)))
      && Decode(Receive(stale, Encode(Execute(s))).bytes) == LoadString(s[..RecvMax - 1])
      && e == Dies
      && ExitStatusAsWritten(ClientReads(e)).None?
  {
    var s := seq(RecvMax, _ => 'a');
    assert NulFree(s);
    assert [ScriptOpt(s)][1..] == [];
    InlineRecordIntact(s);
    LongScriptTruncated(s, stale);
    assert Encode(Execute(s))[0] == TagExecute;
  }

  /** With the guard matched to the worker, that script is refused before anything is sent. */
  lemma PlannedRefusesOverlongScript(s: string)
    requires |s| > MaxPayload
    ensures PlanRequest([ScriptOpt(s)], []) == Exits(ExitFailure)
  {
  }

  /**
   * As written, a client whose worker ends without a reply (the file does not
   * open, or it was asked to quit) reads end-of-file, and `status` is never
   * set: the exit status is undetermined.
   */
  lemma AsWrittenStatusUndetermined(c: Command, stale: string, passed: seq<int>, report: LoadReport)
    requires |stale| == RecvBufSize && |passed| >= 3 && Fits(c)
    requires c.RunFile? || c.Quit?
    ensures ExitStatusAsWritten(ClientReads(Child(Stream(Encode(c)), stale, passed, false, report))).None?
  {
    RoundTrip(c, stale);
  }

  /** With end-of-file read as failure, a worker that ends without a reply always makes the client fail. */
  lemma NoReplyIsFailure(e: WorkerEnd)
    requires !e.Replies?
    ensures ExitStatus(ClientReads(e)) == ExitFailure
    ensures ExitStatusAsWritten(ClientReads(e)).None?
  {
  }
}

=== FILE: slots.dfy ===
/**
 * The supervisor's slot table `childpipes`: one `int` per pool slot holding
 * the read end of that slot's readiness pipe, `-1` for a slot with none. Only
 * the supervisor's single-threaded loop touches it; `pipe` and `fork` are an
 * oracle answering each `spawn`.
 */
module Slots {
  import opened Wrappers

  /** The "no descriptor" marker. */
  const Empty: int := -1

  /** How the oracle answers one `spawn`: `pipe` fails, `fork` fails, or both succeed. */
  datatype SpawnAnswer = PipeFails | ForkFails | Forked(readEnd: int, writeEnd: int)

  /** A `pipe` result is fresh: two distinct descriptors the supervisor does not hold open. */
  predicate FreshPipe(a: SpawnAnswer, open: set<int>)
  {
    a.Forked? && 0 <= a.readEnd && 0 <= a.writeEnd && a.readEnd != a.writeEnd
    && a.readEnd !in open && a.writeEnd !in open
  }

  /**
   * `calloc` of the table and the loop that marks every slot `-1`, before
   * any worker is spawned.
   */
  method InitSlots(maxchilds: nat) returns (t: seq<int>)
    ensures |t| == maxchilds
    ensures forall i :: 0 <= i < |t| ==> t[i] == Empty
  {
    t := seq(maxchilds, _ => 0);
    var i := 0;
    while i < maxchilds
      invariant 0 <= i <= maxchilds && |t| == maxchilds
      invariant forall j :: 0 <= j < i ==> t[j] == Empty
    {
      t := t[i := Empty];
      i := i + 1;
    }
  }

  /**
   * The supervisor's side of `spawn(idx)`: `None` when a failed `fork` ends
   * the daemon, otherwise the table afterwards.
   */
  function Spawn(t: seq<int>, idx: nat, a: SpawnAnswer): (r: Option<seq<int>>)
    requires idx < |t|
    ensures r.None? <==> a.ForkFails?
    ensures a.PipeFails? ==> r == Some(t)
    ensures r.Some? ==> |r.value| == |t| && forall j :: 0 <= j < |t| && j != idx ==> r.value[j] == t[j]
    ensures a.Forked? ==> r.Some? && r.value[idx] == a.readEnd
  {
    match a
    case PipeFails => Some(t)
    case ForkFails => None
    case Forked(readEnd, _) => Some(t[idx := readEnd])
  }

  /** What a slot holds after `spawn` went through for it: the new read end, or the old value when `pipe` failed. */
  function Refilled(previous: int, a: SpawnAnswer): int
  {
    match a
    case Forked(readEnd, _) => readEnd
    case _ => previous
  }

  /** The entries of `t` equal to `Empty`, in index order. */
  function EmptyEntries(t: seq<int>): (r: seq<int>)
    ensures forall k :: 0 <= k < |r| ==> r[k] == Empty
  {
    if |t| == 0 then []
    else EmptyEntries(t[..|t| - 1]) + (if t[|t| - 1] == Empty then [Empty] else [])
  }

  /** The descriptors held by slots other than `idx`, in index order. */
  function SiblingEntries(t: seq<int>, idx: nat): (r: seq<int>)
    ensures forall k :: 0 <= k < |r| ==> r[k] != Empty
    ensures forall x :: x in r <==> exists j :: 0 <= j < |t| && j != idx && t[j] == x && x != Empty
  {
    if |t| == 0 then []
    else
      var r := SiblingEntries(t[..|t| - 1], idx) + (if |t| - 1 != idx && t[|t| - 1] != Empty then [t[|t| - 1]] else []);
      assert forall j :: 0 <= j < |t| - 1 ==> t[..|t| - 1][j] == t[j];
      r
  }

  /**
   * `closechildpipes` as written, in a newly forked worker: its test is
   * inverted, so it "closes" and resets only the slots that are already `-1`.
   * `closed` lists the arguments passed to `close`.
   */
  method CloseChildPipes(t: seq<int>) returns (u: seq<int>, closed: seq<int>)
    ensures u == t
    ensures closed == EmptyEntries(t)
    ensures forall k :: 0 <= k < |closed| ==> closed[k] == Empty
  {
    u := t;
    closed := [];
    var i := 0;
    while i < |u|
      invariant 0 <= i <= |u| && u == t
      invariant closed == EmptyEntries(t[..i])
    {
      assert t[..i + 1][..i] == t[..i];
      if u[i] == Empty {
        closed := closed + [u[i]];
        u := u[i := Empty];
      }
      i := i + 1;
    }
    assert t[..|t|] == t;
  }

  /**
   * The cleanup the worker needs: close every sibling slot that holds a
   * descriptor and mark it `-1`. Slot `idx` is the worker's own; the
   * supervisor has already closed whatever it held.
   */
  method CloseSiblingPipes(t: seq<int>, idx: nat) returns (u: seq<int>, closed: seq<int>)
    requires idx < |t|
    ensures |u| == |t| && u[idx] == t[idx]
    ensures forall j :: 0 <= j < |t| && j != idx ==> u[j] == Empty
    ensures closed == SiblingEntries(t, idx)
  {
    u := t;
    closed := [];
    var i := 0;
    while i < |u|
      invariant 0 <= i <= |u| && |u| == |t| && u[idx] == t[idx]
      invariant forall j :: 0 <= j < i && j != idx ==> u[j] == Empty
      invariant forall j :: i <= j < |t| ==> u[j] == t[j]
      invariant closed == SiblingEntries(t[..i], idx)
    {
      assert t[..i + 1][..i] == t[..i];
      if i != idx && u[i] != Empty {
        closed := closed + [u[i]];
        u := u[i := Empty];
      }
      i := i + 1;
    }
    assert t[..|t|] == t;
  }

  /**
   * The slot-pipe descriptors a new worker holds after its start-up cleanup:
   * it inherits the supervisor's `open` set together with the new pipe,
   * closes the pipe's read end, then closes each descriptor in `closed`.
   */
  function ChildHolds(open: set<int>, a: SpawnAnswer, closed: seq<int>): set<int>
    requires a.Forked?
  {
    (open + {a.readEnd, a.writeEnd}) - {a.readEnd} - (set x | x in closed)
  }

  /**
   * As written, the cleanup closes nothing: the new worker keeps every read
   * end the supervisor holds, its siblings' included. Its only write end is
   * its own, so the leak does not keep a sibling's pipe from reaching
   * end-of-file.
   */
  lemma AsWrittenChildKeepsSiblings(t: seq<int>, open: set<int>, a: SpawnAnswer)
    requires FreshPipe(a, open)
    requires forall x :: x in open ==> x >= 0
    ensures ChildHolds(open, a, EmptyEntries(t)) == open + {a.writeEnd}
  {
    var closed := EmptyEntries(t);
    assert forall x :: x in closed ==> x == Empty;
  }

  /**
   * With the cleanup the source intends, a worker whose supervisor holds
   * only descriptors recorded in sibling slots ends up holding exactly its
   * own write end, provided no sibling slot records that number.
   */
  lemma SiblingCleanupLeavesOwnWriteEnd(t: seq<int>, idx: nat, open: set<int>, a: SpawnAnswer)
    requires idx < |t|
    requires FreshPipe(a, open)
    requires forall x :: x in open ==> x in SiblingEntries(t, idx)
    requires a.writeEnd !in SiblingEntries(t, idx)
    ensures ChildHolds(open, a, SiblingEntries(t, idx)) == {a.writeEnd}
  {
  }

  /**
   * The proviso matters: a sibling slot still recording a descriptor the
   * supervisor closed (one left by a failed `pipe`) may carry the number the
   * kernel hands out as the new write end, and the cleanup then closes the
   * worker's own readiness pipe.
   */
  lemma StaleSiblingClosesOwnWriteEnd(t: seq<int>, idx: nat, open: set<int>, a: SpawnAnswer)
    requires idx < |t|
    requires FreshPipe(a, open)
    requires a.writeEnd in SiblingEntries(t, idx)
    ensures a.writeEnd !in ChildHolds(open, a, SiblingEntries(t, idx))
  {
  }

  /** Slot indices `j >= from` whose descriptor `select` reported ready, ascending. */
  function ReadyFrom(t: seq<int>, ready: set<int>, from: nat): (r: seq<int>)
    requires from <= |t|
    ensures forall k :: 0 <= k < |r| ==> from <= r[k] < |t|
    decreases |t| - from
  {
    if from == |t| then []
    else (if t[from] in ready then [from] else []) + ReadyFrom(t, ready, from + 1)
  }

  /** `ReadyFrom` lists exactly the ready slots from `from` on, in ascending order. */
  lemma {:induction false} ReadyFromExact(t: seq<int>, ready: set<int>, from: nat)
    requires from <= |t|
    ensures forall k :: 0 <= k < |ReadyFrom(t, ready, from)| ==> t[ReadyFrom(t, ready, from)[k]] in ready
    ensures forall j :: from <= j < |t| && t[j] in ready ==> j in ReadyFrom(t, ready, from)
    ensures forall k, m :: 0 <= k < m < |ReadyFrom(t, ready, from)| ==> ReadyFrom(t, ready, from)[k] < ReadyFrom(t, ready, from)[m]
    decreases |t| - from
  {
    if from < |t| {
      ReadyFromExact(t, ready, from + 1);
    }
  }

  /** The first `n` elements of `s` (none when `n <= 0`). */
  function First<T>(s: seq<T>, n: int): (r: seq<T>)
    ensures |r| == (if n <= 0 then 0 else if n < |s| then n else |s|)
  {
    if n <= 0 then [] else if n < |s| then s[..n] else s
  }

  lemma FirstIsPrefix<T>(s: seq<T>, n: int)
    ensures First(s, n) == s[..|First(s, n)|]
  {
  }

  /** The slots one refill pass respawns: the first `n` ready slots in index order. */
  function Chosen(t: seq<int>, ready: set<int>, n: int): (r: seq<int>)
    ensures forall k :: 0 <= k < |r| ==> 0 <= r[k] < |t|
  {
    First(ReadyFrom(t, ready, 0), n)
  }

  /** The values `t` holds at the indices `idxs`, in that order. */
  function ValuesAt(t: seq<int>, idxs: seq<int>): (r: seq<int>)
    requires forall k :: 0 <= k < |idxs| ==> 0 <= idxs[k] < |t|
    ensures |r| == |idxs|
  {
    if |idxs| == 0 then [] else [t[idxs[0]]] + ValuesAt(t, idxs[1..])
  }

  lemma {:induction false} ValuesAtIndex(t: seq<int>, idxs: seq<int>, k: int)
    requires forall m :: 0 <= m < |idxs| ==> 0 <= idxs[m] < |t|
    requires 0 <= k < |idxs|
    ensures ValuesAt(t, idxs)[k] == t[idxs[k]]
    decreases |idxs|
  {
    if k > 0 {
      ValuesAtIndex(t, idxs[1..], k - 1);
    }
  }

  /** The end of one pass: the table, the descriptors closed and the count left; or a daemon ended by `fork`. */
  datatype PassResult = PassDone(slots: seq<int>, closed: seq<int>, left: int) | SupervisorDied

  lemma FirstCons(x: int, s: seq<int>, k: int)
    requires k > 0
    ensures First([x] + s, k) == [x] + First(s, k - 1)
  {
    if k - 1 < |s| {
      assert ([x] + s)[..k] == [x] + s[..k - 1];
    }
  }

  /** The slots the loop takes from slot `i` on with `k` still to count: its own step-by-step reading. */
  function ChosenFrom(t: seq<int>, ready: set<int>, i: nat, k: int): (r: seq<int>)
    requires i <= |t|
    ensures forall m :: 0 <= m < |r| ==> i <= r[m] < |t|
    decreases |t| - i
  {
    if k <= 0 || i == |t| then []
    else if t[i] in ready then [i] + ChosenFrom(t, ready, i + 1, k - 1)
    else ChosenFrom(t, ready, i + 1, k)
  }

  /** The loop's step-by-step choice agrees with "the first `k` ready slots". */
  lemma {:induction false} ChosenFromIsFirst(t: seq<int>, ready: set<int>, i: nat, k: int)
    requires i <= |t|
    ensures ChosenFrom(t, ready, i, k) == First(ReadyFrom(t, ready, i), k)
    decreases |t| - i
  {
    if k > 0 && i < |t| {
      var tail := ReadyFrom(t, ready, i + 1);
      if t[i] in ready {
        assert ReadyFrom(t, ready, i) == [i] + tail;
        assert ChosenFrom(t, ready, i, k) == [i] + ChosenFrom(t, ready, i + 1, k - 1);
        ChosenFromIsFirst(t, ready, i + 1, k - 1);
        FirstCons(i, tail, k);
      } else {
        assert ReadyFrom(t, ready, i) == tail;
        assert ChosenFrom(t, ready, i, k) == ChosenFrom(t, ready, i + 1, k);
        ChosenFromIsFirst(t, ready, i + 1, k);
      }
    }
  }

  lemma ValuesAtCons(t: seq<int>, i: int, idxs: seq<int>)
    requires 0 <= i < |t| && forall k :: 0 <= k < |idxs| ==> 0 <= idxs[k] < |t|
    ensures ValuesAt(t, [i] + idxs) == [t[i]] + ValuesAt(t, idxs)
  {
    assert ([i] + idxs)[1..] == idxs;
  }

  /**
   * The refill loop from slot `i` on, with `k` still to count and `closed`
   * the descriptors closed so far, read one step at a time.
   */
  function PassFrom(u: seq<int>, ready: set<int>, answers: seq<SpawnAnswer>, i: nat, k: int, closed: seq<int>): (r: PassResult)
    requires |answers| == |u| && i <= |u|
    ensures r.PassDone? ==> |r.slots| == |u| && closed <= r.closed
    ensures r.PassDone? ==> r.left == k - (|r.closed| - |closed|) && (k > 0 ==> r.left >= 0)
    decreases |u| - i
  {
    if k <= 0 || i == |u| then PassDone(u, closed, k)
    else if u[i] in ready then
      match Spawn(u, i, answers[i])
      case None => SupervisorDied
      case Some(next) => PassFrom(next, ready, answers, i + 1, k - 1, closed + [u[i]])
    else PassFrom(u, ready, answers, i + 1, k, closed)
  }

  predicate SomeForkFails(c: seq<int>, answers: seq<SpawnAnswer>)
    requires forall m :: 0 <= m < |c| ==> 0 <= c[m] < |answers|
  {
    exists m :: 0 <= m < |c| && answers[c[m]].ForkFails?
  }

  /** The rest of a pass ends the daemon exactly when `fork` fails for one of the slots it chooses. */
  lemma {:induction false} PassFromDies(t: seq<int>, u: seq<int>, ready: set<int>, answers: seq<SpawnAnswer>, i: nat, k: int, closed: seq<int>)
    requires |answers| == |t| == |u| && i <= |t|
    requires forall j :: i <= j < |t| ==> u[j] == t[j]
    ensures PassFrom(u, ready, answers, i, k, closed).SupervisorDied? <==> SomeForkFails(ChosenFrom(t, ready, i, k), answers)
    decreases |t| - i
  {
    var c := ChosenFrom(t, ready, i, k);
    if k <= 0 || i == |t| {
      assert c == [];
    } else if t[i] in ready {
      var rest := ChosenFrom(t, ready, i + 1, k - 1);
      assert c == [i] + rest;
      assert u[i] == t[i];
      match Spawn(u, i, answers[i])
      case None =>
        assert answers[c[0]].ForkFails?;
      case Some(next) =>
        PassFromDies(t, next, ready, answers, i + 1, k - 1, closed + [u[i]]);
        if SomeForkFails(rest, answers) {
          var m :| 0 <= m < |rest| && answers[rest[m]].ForkFails?;
          assert c[m + 1] == rest[m];
        }
        if SomeForkFails(c, answers) {
          var m :| 0 <= m < |c| && answers[c[m]].ForkFails?;
          assert m > 0 && c[m] == rest[m - 1];
        }
    } else {
      assert c == ChosenFrom(t, ready, i + 1, k);
      assert u[i] == t[i];
      PassFromDies(t, u, ready, answers, i + 1, k, closed);
    }
  }

  /** When the rest of a pass completes, each chosen slot is refilled and every other slot keeps its value. */
  lemma {:induction false} PassFromSlots(t: seq<int>, u: seq<int>, ready: set<int>, answers: seq<SpawnAnswer>, i: nat, k: int, closed: seq<int>)
    requires |answers| == |t| == |u| && i <= |t|
    requires forall j :: i <= j < |t| ==> u[j] == t[j]
    requires PassFrom(u, ready, answers, i, k, closed).PassDone?
    ensures |PassFrom(u, ready, answers, i, k, closed).slots| == |t|
    ensures forall j :: 0 <= j < |t| ==>
      PassFrom(u, ready, answers, i, k, closed).slots[j] == if j in ChosenFrom(t, ready, i, k) then Refilled(t[j], answers[j]) else u[j]
    decreases |t| - i
  {
    var c := ChosenFrom(t, ready, i, k);
    if k <= 0 || i == |t| {
      assert c == [];
    } else if t[i] in ready {
      var rest := ChosenFrom(t, ready, i + 1, k - 1);
      assert c == [i] + rest;
      assert u[i] == t[i];
      var next := Spawn(u, i, answers[i]).value;
      PassFromSlots(t, next, ready, answers, i + 1, k - 1, closed + [u[i]]);
      assert i !in rest;
    } else {
      assert c == ChosenFrom(t, ready, i + 1, k);
      assert u[i] == t[i];
      PassFromSlots(t, u, ready, answers, i + 1, k, closed);
      assert i !in c;
    }
  }

  /**
   * When the rest of a pass completes, the chosen slots' old descriptors are
   * closed in order and the count drops by one per chosen slot.
   */
  lemma {:induction false} PassFromTrace(t: seq<int>, u: seq<int>, ready: set<int>, answers: seq<SpawnAnswer>, i: nat, k: int, closed: seq<int>)
    requires |answers| == |t| == |u| && i <= |t|
    requires forall j :: i <= j < |t| ==> u[j] == t[j]
    requires PassFrom(u, ready, answers, i, k, closed).PassDone?
    ensures PassFrom(u, ready, answers, i, k, closed).closed == closed + ValuesAt(t, ChosenFrom(t, ready, i, k))
    decreases |t| - i
  {
    var c := ChosenFrom(t, ready, i, k);
    if k <= 0 || i == |t| {
      assert c == [];
      assert closed + ValuesAt(t, c) == closed;
    } else if t[i] in ready {
      var rest := ChosenFrom(t, ready, i + 1, k - 1);
      assert c == [i] + rest;
      assert u[i] == t[i];
      var next := Spawn(u, i, answers[i]).value;
      assert PassFrom(u, ready, answers, i, k, closed) == PassFrom(next, ready, answers, i + 1, k - 1, closed + [u[i]]);
      PassFromTrace(t, next, ready, answers, i + 1, k - 1, closed + [u[i]]);
      assert ValuesAt(t, c) == [t[i]] + ValuesAt(t, rest) by {
        ValuesAtCons(t, i, rest);
      }
      assert (closed + [u[i]]) + ValuesAt(t, rest) == closed + ([u[i]] + ValuesAt(t, rest));
    } else {
      assert c == ChosenFrom(t, ready, i + 1, k);
      assert u[i] == t[i];
      PassFromTrace(t, u, ready, answers, i + 1, k, closed);
    }
  }

  /** When the rest of a pass completes, the count has dropped by one per chosen slot. */
  lemma {:induction false} PassFromCount(t: seq<int>, u: seq<int>, ready: set<int>, answers: seq<SpawnAnswer>, i: nat, k: int, closed: seq<int>)
    requires |answers| == |t| == |u| && i <= |t|
    requires forall j :: i <= j < |t| ==> u[j] == t[j]
    requires PassFrom(u, ready, answers, i, k, closed).PassDone?
    ensures PassFrom(u, ready, answers, i, k, closed).left == if k <= 0 then k else k - |ChosenFrom(t, ready, i, k)|
    decreases |t| - i
  {
    if k > 0 && i < |t| {
      assert u[i] == t[i];
      if t[i] in ready {
        PassFromCount(t, Spawn(u, i, answers[i]).value, ready, answers, i + 1, k - 1, closed + [u[i]]);
      } else {
        PassFromCount(t, u, ready, answers, i + 1, k, closed);
      }
    }
  }

  /** A whole pass, started at slot 0 with nothing closed, measured against its starting table. */
  lemma PassMeaning(t: seq<int>, ready: set<int>, n: int, answers: seq<SpawnAnswer>)
    requires |answers| == |t|
    ensures var c := Chosen(t, ready, n);
      var r := PassFrom(t, ready, answers, 0, n, []);
      && (r.SupervisorDied? <==> exists m :: 0 <= m < |c| && answers[c[m]].ForkFails?)
      && (r.PassDone? ==> |r.slots| == |t|)
      && (r.PassDone? ==> forall j :: 0 <= j < |t| ==> r.slots[j] == if j in c then Refilled(t[j], answers[j]) else t[j])
      && (r.PassDone? ==> r.closed == ValuesAt(t, c))
      && (r.PassDone? ==> r.left == if n <= 0 then n else n - |c|)
  {
    ChosenFromIsFirst(t, ready, 0, n);
    PassFromDies(t, t, ready, answers, 0, n, []);
    if PassFrom(t, ready, answers, 0, n, []).PassDone? {
      PassFromSlots(t, t, ready, answers, 0, n, []);
      PassFromTrace(t, t, ready, answers, 0, n, []);
      PassFromCount(t, t, ready, answers, 0, n, []);
      assert [] + ValuesAt(t, Chosen(t, ready, n)) == ValuesAt(t, Chosen(t, ready, n));
    }
  }

  /**
   * One pass of the supervisor's refill loop over the descriptors `select`
   * reported `ready`, `n` being its count: visiting slots in index order, it
   * closes and respawns each ready one, counting `n` down, and stops when `n`
   * reaches 0. `answers[i]` is the oracle's answer for slot `i`.
   */
  method RefillPass(t: seq<int>, ready: set<int>, n: int, answers: seq<SpawnAnswer>) returns (r: PassResult)
    requires |answers| == |t|
    ensures r.SupervisorDied? <==>
      exists k :: 0 <= k < |Chosen(t, ready, n)| && answers[Chosen(t, ready, n)[k]].ForkFails?
    ensures r.PassDone? ==> |r.slots| == |t|
    ensures r.PassDone? ==> forall j :: 0 <= j < |t| ==>
      r.slots[j] == if j in Chosen(t, ready, n) then Refilled(t[j], answers[j]) else t[j]
    ensures r.PassDone? ==> r.closed == ValuesAt(t, Chosen(t, ready, n))
    ensures r.PassDone? ==> r.left == if n <= 0 then n else n - |Chosen(t, ready, n)|
  {
    var u := t;
    var closed: seq<int> := [];
    var k := n;
    var i := 0;
    var died := false;
    while !died && k > 0 && i < |u|
      invariant 0 <= i <= |t| && |u| == |t|
      invariant died ==> PassFrom(t, ready, answers, 0, n, []) == SupervisorDied
      invariant !died ==> PassFrom(u, ready, answers, i, k, closed) == PassFrom(t, ready, answers, 0, n, [])
    {
      if u[i] in ready {
        var s := Spawn(u, i, answers[i]);
        if s.None? {
          died := true;
        } else {
          closed := closed + [u[i]];
          u := s.value;
          k := k - 1;
        }
      }
      if !died {
        i := i + 1;
      }
    }
    r := if died then SupervisorDied else PassDone(u, closed, k);
    PassMeaning(t, ready, n, answers);
  }

  /** A pass leaves every slot whose descriptor was not reported ready as it was. */
  lemma PassSparesIdleSlots(t: seq<int>, ready: set<int>, n: int, j: nat)
    requires j < |t| && t[j] !in ready
    ensures j !in Chosen(t, ready, n)
  {
    ReadyFromExact(t, ready, 0);
    FirstIsPrefix(ReadyFrom(t, ready, 0), n);
  }

  /**
   * When `n` covers every ready slot, the pass respawns all of them; when it
   * is exactly their number, nothing is left to count.
   */
  lemma PassCoversReady(t: seq<int>, ready: set<int>, n: int)
    requires n >= |ReadyFrom(t, ready, 0)|
    ensures Chosen(t, ready, n) == ReadyFrom(t, ready, 0)
    ensures forall j :: 0 <= j < |t| && t[j] in ready ==> j in Chosen(t, ready, n)
    ensures n == |ReadyFrom(t, ready, 0)| && n > 0 ==> n - |Chosen(t, ready, n)| == 0
  {
    ReadyFromExact(t, ready, 0);
  }

  /**
   * A failed `pipe` during a refill leaves the slot recording the very
   * descriptor the pass just closed.
   */
  lemma PipeFailureLeavesStaleSlot(t: seq<int>, ready: set<int>, n: int, answers: seq<SpawnAnswer>, j: nat)
    requires |answers| == |t| && j < |t|
    requires j in Chosen(t, ready, n) && answers[j].PipeFails?
    ensures Refilled(t[j], answers[j]) == t[j]
    ensures t[j] in ValuesAt(t, Chosen(t, ready, n))
  {
    var c := Chosen(t, ready, n);
    var k :| 0 <= k < |c| && c[k] == j;
    ValuesAtIndex(t, c, k);
  }

  /**
   * Start-up: `calloc` the table, mark every slot `-1`, then `spawn` each
   * slot in turn. `callocFails` is the allocator's answer. `None` when a
   * failed `calloc` or a failed `fork` ends the daemon; otherwise slot `i`
   * holds the read end of its pipe, or stays `-1` when its `pipe` failed.
   */
  method StartPool(maxchilds: nat, callocFails: bool, answers: seq<SpawnAnswer>) returns (r: Option<seq<int>>)
    requires |answers| == maxchilds
    ensures r.None? <==> callocFails || exists i :: 0 <= i < maxchilds && answers[i].ForkFails?
    ensures r.Some? ==> |r.value| == maxchilds
    ensures r.Some? ==> forall i :: 0 <= i < maxchilds ==> r.value[i] == Refilled(Empty, answers[i])
  {
    if callocFails {
      return None;
    }
    var t := InitSlots(maxchilds);
    var i := 0;
    while i < maxchilds
      invariant 0 <= i <= maxchilds && |t| == maxchilds
      invariant forall j :: 0 <= j < i ==> !answers[j].ForkFails?
      invariant forall j :: 0 <= j < maxchilds ==> t[j] == if j < i then Refilled(Empty, answers[j]) else Empty
    {
      var s := Spawn(t, i, answers[i]);
      if s.None? {
        return None;
      }
      t := s.value;
      i := i + 1;
    }
    r := Some(t);
  }
}

=== FILE: sockpath.dfy ===
/**
 * The endpoint path both programs derive on their own: `/tmp/mrubyd-`
 * followed by `$LOGIN` when it is set, else the decimal user id. The daemon
 * formats it into a 100-byte buffer (`allocsockpath`); the client formats it
 * straight into `sun_path` (`mksockpath`).
 */
module SockPath {
  import opened Wrappers
  import opened Libc
  import opened Decimal

  const Prefix: string := "/tmp/mrubyd-"

  /** `char buf[100]` in `allocsockpath`. */
  const DaemonBufSize: nat := 100

  /** `sizeof(sun_path)` on the BSD systems the code is written for (it sets `sun_len`). */
  const SunPathSize: nat := 104

  /** The identity part: the login name when `LOGIN` is set, else `(int)getuid()` in decimal. */
  function Identity(login: Option<string>, uid: nat): (r: string)
    requires uid < UidModulus
    ensures login.Some? ==> r == login.value
    ensures login.None? ==> ParseInt(r) == Some(Int32Of(uid))
  {
    match login
    case Some(name) => name
    case None =>
      FormatIntRoundTrip(Int32Of(uid));
      FormatInt(Int32Of(uid))
  }

  /** The path before any buffer truncation. */
  function FullPath(login: Option<string>, uid: nat): (r: string)
    requires uid < UidModulus
    ensures |r| == |Prefix| + |Identity(login, uid)|
    ensures r[..|Prefix|] == Prefix && r[|Prefix|..] == Identity(login, uid)
  {
    Prefix + Identity(login, uid)
  }

  /** The path the daemon binds to when no `-p` is given. */
  function DaemonPath(login: Option<string>, uid: nat): (p: string)
    requires uid < UidModulus
    ensures |p| < DaemonBufSize
  {
    CStr(Snprintf(FullPath(login, uid), DaemonBufSize))
  }

  /** The path the client connects to. */
  function ClientPath(login: Option<string>, uid: nat): (p: string)
    requires uid < UidModulus
    ensures |p| < SunPathSize
  {
    CStr(Snprintf(FullPath(login, uid), SunPathSize))
  }

  /** A path shorter than the daemon's buffer is used untruncated by both sides: they meet. */
  lemma PathsAgree(login: Option<string>, uid: nat)
    requires uid < UidModulus
    requires login.Some? ==> NulFree(login.value)
    requires |FullPath(login, uid)| < DaemonBufSize
    ensures DaemonPath(login, uid) == FullPath(login, uid)
    ensures ClientPath(login, uid) == FullPath(login, uid)
  {
    var full := FullPath(login, uid);
    FullPathNulFree(login, uid);
    assert Snprintf(full, DaemonBufSize) == full + [NUL] + [];
    assert Snprintf(full, SunPathSize) == full + [NUL] + [];
    CStrOfTerminated(full, []);
  }

  /**
   * A login long enough to fill the daemon's buffer is cut at 99 bytes by
   * the daemon but not by the client, which has room for 103: they miss each other.
   */
  lemma PathsDiverge(login: Option<string>, uid: nat)
    requires uid < UidModulus
    requires login.Some? ==> NulFree(login.value)
    requires |FullPath(login, uid)| >= DaemonBufSize
    ensures |DaemonPath(login, uid)| == DaemonBufSize - 1
    ensures |ClientPath(login, uid)| >= DaemonBufSize
    ensures DaemonPath(login, uid) != ClientPath(login, uid)
  {
    var full := FullPath(login, uid);
    FullPathNulFree(login, uid);
    var d := full[..DaemonBufSize - 1];
    assert Snprintf(full, DaemonBufSize) == d + [NUL] + [];
    CStrOfTerminated(d, []);
    var k := Min(|full|, SunPathSize - 1);
    var c := full[..k];
    assert Snprintf(full, SunPathSize) == c + [NUL] + [];
    CStrOfTerminated(c, []);
  }

  /** Without `LOGIN` the path is short on every platform, so daemon and client always agree. */
  lemma UidPathsAgree(uid: nat)
    requires uid < UidModulus
    ensures DaemonPath(None, uid) == ClientPath(None, uid) == FullPath(None, uid)
  {
    FormatInt32Length(Int32Of(uid));
    PathsAgree(None, uid);
  }

  /** Without `LOGIN`, users with different ids get different endpoints. */
  lemma UidPathsDistinct(uid: nat, other: nat)
    requires uid < UidModulus && other < UidModulus && uid != other
    ensures DaemonPath(None, uid) != DaemonPath(None, other)
    ensures ClientPath(None, uid) != ClientPath(None, other)
  {
    UidPathsAgree(uid);
    UidPathsAgree(other);
  }

  /** The path names its owner: the prefix is followed by the login, or by digits that read back as the id. */
  lemma PathNamesOwner(login: Option<string>, uid: nat)
    requires uid < UidModulus
    ensures FullPath(login, uid)[..|Prefix|] == Prefix
    ensures login.Some? ==> FullPath(login, uid)[|Prefix|..] == login.value
    ensures login.None? ==> ParseInt(FullPath(login, uid)[|Prefix|..]) == Some(Int32Of(uid))
  {
    assert FullPath(login, uid)[|Prefix|..] == Identity(login, uid);
    if login.None? {
      FormatIntRoundTrip(Int32Of(uid));
    }
  }

  lemma FullPathNulFree(login: Option<string>, uid: nat)
    requires uid < UidModulus
    requires login.Some? ==> NulFree(login.value)
    ensures NulFree(FullPath(login, uid))
  {
    var id := Identity(login, uid);
    if login.None? {
      var x := Int32Of(uid);
      var d := if x < 0 then Digits(-x) else Digits(x);
      assert forall i :: 0 <= i < |d| ==> IsDigit(d[i]);
    }
  }
}

=== FILE: worker.dfy ===
/**
 * One worker's job, `child` in the daemon: read one request, take over the
 * caller's three standard descriptors, run the script and compute the status
 * sent back. The interpreter and `fopen` are oracles: the caller supplies
 * whether the file opens and what the interpreter leaves behind.
 */
module Worker {
  import opened Libc
  import opened Request

  /** What the worker's `recv` of the request returned. */
  datatype Incoming = RecvFailed | Stream(bytes: string)

  /** What the interpreter leaves after a load: a pending exception, and whether the value was `undef`. */
  datatype LoadReport = LoadReport(exc: bool, undef: bool)

  /** A fresh interpreter state that was asked to load nothing holds no exception. */
  const NothingLoaded: LoadReport := LoadReport(false, false)

  /** How a worker ends. */
  datatype WorkerEnd =
    | ShutsDown                 // `killpg(0, SIGTERM)` reached the worker's own group
    | Dies                      // `err(1, ...)`: exit without sending a status
    | Replies(ran: Dispatch, status: int, printsError: bool, stdio: seq<int>)

  /** The status rule at the end of `child`. */
  function StatusOf(r: LoadReport): (status: int)
    ensures status == ExitFailure <==> r.exc
    ensures status == ExitSuccess <==> !r.exc
  {
    if r.exc then ExitFailure else ExitSuccess
  }

  /** The error is printed only when an exception is pending and the loaded value is not `undef`. */
  function PrintsError(r: LoadReport): (p: bool)
    ensures p ==> StatusOf(r) == ExitFailure
  {
    r.exc && !r.undef
  }

  /**
   * Worker-side binding of passed descriptors: the k-th one received becomes
   * descriptor k (stdin, stdout, stderr). Fewer than three is fatal.
   */
  function Rebind(passed: seq<int>): (stdio: seq<int>)
    requires |passed| >= 3
    ensures |stdio| == 3
    ensures forall k :: 0 <= k < 3 ==> stdio[k] == passed[k]
  {
    passed[..3]
  }

  /**
   * `child`: `stale` is the uninitialised request buffer, `passed` the
   * descriptors the connection carries after the request, `fileOpens` the
   * outcome of `fopen`, `report` the interpreter's state after loading.
   *
   * A record longer than the `RecvMax` bytes `recv` takes leaves its tail
   * ahead of the descriptor messages: the first `recvdesc` reads a tail byte
   * that carries no `SCM_RIGHTS` message and ends the worker in `errx(1, ...)`.
   */
  function Child(incoming: Incoming, stale: string, passed: seq<int>, fileOpens: bool, report: LoadReport): (e: WorkerEnd)
    requires |stale| == RecvBufSize
    ensures e.ShutsDown? <==> incoming.Stream? && |incoming.bytes| >= 1 && incoming.bytes[0] == TagQuit
    ensures e.Replies? ==> incoming.Stream? && |incoming.bytes| <= RecvMax && |passed| >= 3
    ensures e.Replies? ==> e.stdio == passed[..3] && !e.ran.Shutdown?
    ensures e.Replies? && e.ran.LoadNothing? ==> e.status == ExitSuccess
  {
    match incoming
    case RecvFailed => Dies
    case Stream(bytes) =>
      ShutdownOnlyOnQuitTag(stale, bytes);
      var d := Decode(Receive(stale, bytes).bytes);
      if d.Shutdown? then ShutsDown
      else if |bytes| > RecvMax then Dies
      else if |passed| < 3 then Dies
      else if d.LoadFile? && !fileOpens then Dies
      else
        var r := if d.LoadNothing? then NothingLoaded else report;
        Replies(d, StatusOf(r), PrintsError(r), Rebind(passed))
  }

  /**
   * The status a worker replies with is failure exactly when it loaded a
   * script and the interpreter reports a pending exception; the error is
   * printed exactly when, in addition, the value is not `undef`.
   */
  lemma ReplyStatus(incoming: Incoming, stale: string, passed: seq<int>, fileOpens: bool, report: LoadReport)
    requires |stale| == RecvBufSize
    requires Child(incoming, stale, passed, fileOpens, report).Replies?
    ensures var e := Child(incoming, stale, passed, fileOpens, report);
      && (e.status == ExitFailure <==> !e.ran.LoadNothing? && report.exc)
      && (e.status != ExitFailure ==> e.status == ExitSuccess)
      && (e.printsError <==> !e.ran.LoadNothing? && report.exc && !report.undef)
      && !e.ran.Shutdown?
  {
  }

  /**
   * A worker replies exactly when it read a whole request that is no
   * shutdown, got three descriptors and, for a file, opened it.
   */
  lemma RepliesWhen(incoming: Incoming, stale: string, passed: seq<int>, fileOpens: bool, report: LoadReport)
    requires |stale| == RecvBufSize
    ensures Child(incoming, stale, passed, fileOpens, report).Replies? <==>
      && incoming.Stream?
      && |incoming.bytes| <= RecvMax
      && var d := Decode(Receive(stale, incoming.bytes).bytes);
         !d.Shutdown? && |passed| >= 3 && (d.LoadFile? ==> fileOpens)
  {
  }
}

=== FILE: wrappers.dfy ===
/** Failure-carrying datatypes shared by the other modules. */
module Wrappers {

  /** An optional value: `None` plays the part of C's NULL. */
  datatype Option<+T> = None | Some(value: T)

  /** A computation that either yields a value or ends the process with an exit code. */
  datatype Result<+R, +E> = Success(value: R) | Failure(error: E)
}
